=== FILE: README.md ===
# Inventory Management System — a Dafny model of its core

This project models the core of the Inventory Management System, a small
Python application with two halves:

- **user accounts** (`user/user.py`, `user/user_manager.py`): the `User`
  entity with its field validators (username, password strength, e-mail,
  phone, failed-attempt counter), and the `UserManager` that registers and
  removes users, logs them in with a three-strikes, two-minute lockout, logs
  them out, lets the logged-in user change username, password, e-mail and
  phone behind the `require_login` gate, and exports/loads the user database
  as a JSON document;
- **inventory** (`inventory/product.py`, `inventory/category.py`,
  `inventory/inventory_manager.py`): the `Product` and `Category` entities
  with their validators and updates, the category table lookups, and the
  `InventoryManager` product store (add, remove, update quantity, info,
  total value, keyword search, key listing).

Every operation is a pure function from the old state to the new one.
Python dicts are insertion ordered, so each store is a sequence in insertion
order: users keyed by `userId`, products keyed by `name`. The process-wide
`User.current_user` is the `current` field (a user id) of the user store.
An operation that raises `ValueError` returns `Err(...)` naming the rule it
broke; where Python mutates an object and then raises (a failed login), the
model returns the new state together with the error (`Reply`).

The modules follow the program's files:

| file | module | models |
|---|---|---|
| outcomes.dfy | `Outcomes` | `Option`, `Result`, `Check` (a validator's pass/fail) |
| seqs.dfy | `Seqs` | first-match search, deletion at an index, list comprehension |
| text.dfy | `Text` | `str.strip`, `isdigit`/`isupper`/`islower`, `lower`, `in` on strings, `str(int)` |
| user.dfy | `UserFields` | user/user.py |
| user_manager.dfy | `UserStore` | user/user_manager.py |
| user_scenarios.dfy | `UserScenarios` | multi-call properties of the user store |
| product.dfy | `Products` | inventory/product.py |
| category.dfy | `Categories` | inventory/category.py |
| inventory_manager.dfy | `InventoryStore` | inventory/inventory_manager.py |

Parameters stand in for what the model cannot see: bcrypt is the pair
`hash: string -> string` and `verify: (string, string) -> bool`, related only
by `HashSound` (a password verifies against its own hash); the clock is
`now: int` (POSIX seconds); Python's `str` of a float price is
`showPrice: real -> string`; the category table `inventory.data.categories`
is a `seq<CategoryRow>` argument.

Where the code and the repository's tests or other callers disagree, the
model follows the code:

- `search_product` raises when nothing matches; the test
  (`tests/test_inventory_manager.py:62-63`) expects an empty list.
- The product store is keyed by product name
  (`inventory/inventory_manager.py:5-6`). The tests pass product ids where
  the code expects names (`tests/test_inventory_manager.py:18-19`), and build
  products with an integer category that the constructor rejects
  (`tests/test_inventory_manager.py:10-13`). `main.py:106` and `main.py:141`
  call `get_product_info_by_id` and `update_product_description`, which
  `inventory_manager.py` does not define.
- One deliberate exception: the username rule. Every member that validates
  a username uses the corrected rule `UserFields.CheckUsername`, not the
  rule as written (see "## Findings" and "## Left out").
- Unique usernames are enforced by `register` and `update_username` only;
  `load_data_from_json` accepts duplicates, so the store invariant `Wf` does
  not include them (the preservation lemmas carry them as a side condition).

## Model

| member | source | states |
|---|---|---|
| UserFields.CheckUserId | user/user.py:49-53 | an id passes exactly when it is positive |
| UserFields.CheckUsername | user/user.py:56-68 | a name passes exactly when it has 3 to 20 characters, all from `[a-zA-Z0-9_.-]`; whatever it accepts the as-written check accepts too |
| UserFields.CheckUsernameAsWritten | user/user.py:56-68 | the check as Python evaluates it: length 3 to 20, every character but the last from the class, the last from the class or a newline |
| UserFields.TrailingNewlineSlipsThrough | user/user.py:65 | "abc\n" passes the as-written check and is refused by the intended one |
| UserFields.CheckPassword | user/user.py:71-88 | a password passes exactly when it has at least 8 characters and a digit, an upper-case letter, a lower-case letter and one of `!@#$%^&*()-_+=` |
| UserFields.EmailPatternIffShape | user/user.py:97 | the matcher for the e-mail pattern accepts exactly the strings with a single '@' that has text before it, and a '.' after it with text on both sides |
| UserFields.CheckEmail | user/user.py:91-98 | an absent e-mail passes; a present one passes exactly when it has that shape |
| UserFields.CheckPhone | user/user.py:101-111 | an absent phone passes; a present one passes exactly when it has at least 3 characters, all decimal digits |
| UserFields.CheckFailedAttempts | user/user.py:114-118 | a counter passes exactly when it is non-negative |
| UserFields.NewUser | user/user.py:7-46 | a user is built exactly when all six validators pass, holding the given values and valid; otherwise the error is that of the first validator in constructor order that fails |
| UserFields.SetUsername | user/user.py:134-137 | accepted exactly when the new name passes its validator; only the name changes and validity is kept |
| UserFields.SetPassword | user/user.py:143-146 | accepted exactly when the value passes the strength rule; only the password changes and validity is kept |
| UserFields.SetEmail | user/user.py:152-155 | accepted exactly when the e-mail check passes; only the e-mail changes and validity is kept |
| UserFields.SetPhone | user/user.py:161-164 | accepted exactly when the phone check passes; only the phone changes and validity is kept |
| UserFields.SetFailedAttempts | user/user.py:170-173 | accepted exactly when the value is non-negative; only the counter changes |
| UserStore.IndexOfUsername | user/user_manager.py:160-161 | finds a user exactly when one has the name, and it is the first such in insertion order |
| UserStore.MaxId | user/user_manager.py:92 | the largest id in use, which is one of the ids and bounds all of them; 0 for an empty store |
| UserStore.NextId | user/user_manager.py:92 | the new id is one more than the largest id in use (1 for an empty store), so it is held by nobody and is positive when all existing ids are |
| UserStore.RemovedTopIdIsReused | user/user_manager.py:92 | after removing the user with the largest id, when the id below it is taken (or it was 1), the next registration gets the removed id again |
| UserStore.CheckUsernameAvailability | user/user_manager.py:136-144 | succeeds (with `True`) exactly when no user holds the name; otherwise reports the name as taken |
| UserStore.CheckPasswordMatch | user/user_manager.py:146-153 | succeeds (with `True`) exactly when password and confirmation are equal |
| UserStore.Register | user/user_manager.py:65-109 | succeeds exactly when every check passes (including the constructor's re-check of the new id and of the stored hash); then exactly one user is appended with the next id, the hashed password, counter 0 and no lock; every refusal reports the first failing check in the source's order: username rule, name taken, mismatch, password strength, e-mail, phone, then the constructor's id and hash checks |
| UserStore.RegisterPreservesInvariants | user/user_manager.py:65-109 | registration keeps every user valid, ids distinct, the logged-in user present, and usernames unique when they were |
| UserStore.RemoveUser | user/user_manager.py:117-128 | removing the logged-in user is refused first, an unknown id next; otherwise exactly the entry with that id is deleted and the session is kept |
| UserStore.RemoveUserExact | user/user_manager.py:117-128 | after a removal the id is gone, every other id stays, and the store invariants survive |
| UserStore.RemoveAtIds | user/user_manager.py:128 | deleting one entry keeps every other id and adds none; with distinct ids the deleted id is gone |
| UserStore.RemoveAtKeepsInvariants | user/user_manager.py:128 | deleting one entry keeps every user valid, ids distinct and usernames unique |
| UserStore.ClearExpiredLock | user/user_manager.py:178-181 | an expired lock (a non-zero lock time that has passed) is cleared with the counter; any other user is unchanged |
| UserStore.Login | user/user_manager.py:155-199 | an unknown name or an active lock changes nothing; login succeeds exactly when the first user with the name is not locked and the password verifies, which clears its counters and opens its session; a wrong password adds one failure and at the third locks the account until now + 120 s; no other user and no non-counter field changes |
| UserStore.SameAccountsLookups | user/user_manager.py:155-199 | stores that differ only in login counters have the same username lookups, ids and invariants |
| UserStore.LoginPreservesInvariants | user/user_manager.py:155-199 | a login attempt, whatever its outcome, keeps the store invariants and unique usernames |
| UserStore.Logout | user/user_manager.py:6-12 | without a session the gate leaves the store as it is; with one the session ends; nobody is logged in afterwards and the users are untouched |
| UserStore.UpdateEntry | user/user_manager.py:231 | the update reaches exactly the entry of the logged-in user's id; every other entry is unchanged |
| UserStore.UpdateUsername | user/user_manager.py:225-244 | a no-op without a session or for an empty/absent name; otherwise succeeds exactly when the name is valid and held by nobody, and then only the logged-in user's name changes |
| UserStore.OwnNameIsTaken | user/user_manager.py:241 | renaming to one's own current name is refused as taken |
| UserStore.UpdateUsernamePreservesInvariants | user/user_manager.py:225-244 | a rename keeps the store invariants and unique usernames |
| UserStore.UpdatePassword | user/user_manager.py:246-262 | without a session nothing happens; a mismatch, then a weak password, then a hash the setter refuses, is each reported as its own error; succeeds exactly when the password matches, is strong and its hash passes the setter's strength rule; then only the logged-in user's stored hash changes |
| UserStore.UpdatePasswordPreservesInvariants | user/user_manager.py:246-262 | a password change keeps the store invariants and every username |
| UserStore.UpdateEmail | user/user_manager.py:264-270 | without a session nothing happens; otherwise succeeds exactly when the e-mail check passes, and then only the logged-in user's e-mail changes |
| UserStore.UpdateEmailPreservesInvariants | user/user_manager.py:264-270 | an e-mail change keeps the store invariants and every username |
| UserStore.UpdatePhone | user/user_manager.py:272-278 | without a session nothing happens; otherwise succeeds exactly when the phone check passes, and then only the logged-in user's phone changes |
| UserStore.UpdatePhonePreservesInvariants | user/user_manager.py:272-278 | a phone change keeps the store invariants and every username |
| UserStore.ToRecord | user/user_manager.py:52-60 | the exported record of a valid user rebuilds that same user through the constructor |
| UserStore.Export | user/user_manager.py:46-63 | the document lists one record per user, in store order, with the same ids |
| UserStore.LoadRecords | user/user_manager.py:27-43 | the loop only appends to the users it started with, and it ends without error exactly when every record was added |
| UserStore.LoadRecordsContents | user/user_manager.py:27-43 | each appended user is the constructor's result for the matching record, in order |
| UserStore.LoadRecordsStop | user/user_manager.py:27-40 | a load that stops was stopped by the record after the last one added: the constructor rejected it or its id was already a key |
| UserStore.LoadedUsersValid | user/user_manager.py:38-43 | users appended by a load are valid and keep ids distinct |
| UserStore.Load | user/user_manager.py:22-44 | a load never touches the session, only extends the users, keeps the store well formed, and a document without "users" changes nothing |
| UserStore.ExportLoadRoundTrip | user/user_manager.py:22-63 | loading the export of a well-formed store into an empty one rebuilds the same users in the same order without error, and exporting again yields the same document |
| UserStore.ReloadIsRejected | user/user_manager.py:38-40 | loading a store's own export into it again fails at the first user's id and changes nothing |
| UserScenarios.LoginKeepsAccounts | user/user_manager.py:155-199 | a login attempt changes no account data besides counters and no username lookup |
| UserScenarios.LockoutCycle | user/user_manager.py:163-199 | three wrong passwords lock a clear account for 120 s; inside that window even the right password is refused with nothing changed; after it the right password logs in with the counter reset |
| UserScenarios.RegisterThenLogin | user/user_manager.py:65-109 | a freshly registered user logs in with the password it registered with and becomes the session user |
| UserScenarios.ChangedPasswordOpensAccount | user/user_manager.py:246-262 | after a password change the logged-in user, if not locked and not sharing its name, logs in with the new password |
| Products.NewProduct | inventory/product.py:5-22 | a product is built exactly when id, name, price, quantity and category are acceptable, holding those values; the first failing rule in constructor order is reported, down to a blank category |
| Products.SetName | inventory/product.py:32-36 | accepted exactly when the name is not blank; only the name changes and validity is kept |
| Products.UpdateQuantity | inventory/product.py:50-54 | accepted exactly when the quantity is non-negative; only the quantity changes and validity is kept |
| Products.UpdatePrice | inventory/product.py:56-60 | accepted exactly when the price is non-negative; only the price changes and validity is kept |
| Products.UpdateCategory | inventory/product.py:62-64 | always accepted; only the category changes; a valid product stays valid exactly when the new category is not blank |
| Products.UpdateCategoryCanBreakValidity | inventory/product.py:62-64 | a blank category turns a valid product into one the constructor would refuse |
| Products.Info | inventory/product.py:66-69 | the info string starts with "ProductID: " and ends with ", category: " followed by the category |
| Products.InfoIdRecoverable | inventory/product.py:66-69 | the info string starts with "ProductID: " and the product's id reads back from the digits after it |
| Products.InfoDistinguishesIds | inventory/product.py:66-69 | products with different ids never have the same info string |
| Categories.NewCategory | inventory/category.py:7-14 | a category is built exactly when the id is positive and the name not blank; the id rule is checked first |
| Categories.SetName | inventory/category.py:26-31 | accepted exactly when the name is not blank; the id never changes and validity is kept |
| Categories.IsValidCategory | inventory/category.py:33-37 | true exactly when some table row has the id |
| Categories.GetCategoryNameById | inventory/category.py:39-46 | finds a name exactly when the id is valid, and it is the name of the first row with that id |
| InventoryStore.IndexOfName | inventory/inventory_manager.py:14 | a product is found exactly when one has that name |
| InventoryStore.Keys | inventory/inventory_manager.py:8-10 | the i-th key is the name of the i-th product in insertion order, and a name is listed exactly when a product is stored under it |
| InventoryStore.AddProduct | inventory/inventory_manager.py:12-16 | refused exactly when the name is already a key; otherwise the product is appended, the keys grow by its name, and names stay distinct |
| InventoryStore.RemoveProduct | inventory/inventory_manager.py:18-22 | refused exactly when the name is unknown; otherwise the entry under it is deleted and the others keep their order |
| InventoryStore.RemoveProductExact | inventory/inventory_manager.py:18-22 | after a removal the name is gone, every other name stays, and names stay distinct |
| InventoryStore.UpdateProductQuantity | inventory/inventory_manager.py:24-28 | an unknown name, then a negative quantity, is refused; otherwise only that product's quantity changes and the keys are the same |
| InventoryStore.GetProductInfo | inventory/inventory_manager.py:30-35 | the info string of the product under the name, or the not-found message when there is none |
| InventoryStore.SumValues | inventory/inventory_manager.py:39 | the sum over no products is 0, and it is never negative when prices and quantities are not |
| InventoryStore.TotalValue | inventory/inventory_manager.py:37-39 | the total of an empty store is 0 and it is never negative when prices and quantities are not |
| InventoryStore.SumValuesAppend | inventory/inventory_manager.py:39 | the total over two lists of products is the sum of their totals |
| InventoryStore.AddProductValue | inventory/inventory_manager.py:12-16 | adding a product raises the total by exactly its price times quantity |
| InventoryStore.RemoveProductValue | inventory/inventory_manager.py:18-22 | removing a product lowers the total by exactly its price times quantity |
| InventoryStore.UpdateQuantityValue | inventory/inventory_manager.py:24-28 | setting a quantity replaces that product's old value by its new one in the total |
| InventoryStore.TwoProductValuation | tests/test_inventory_manager.py:44-49 | the test's prices and quantities (999.99 × 50 and 699.99 × 200), with string categories, give the test's total |
| InventoryStore.MatchingProducts | inventory/inventory_manager.py:43-44 | a product is selected exactly when it is stored and its lower-cased name contains the lower-cased keyword |
| InventoryStore.MatchingProductsSingle | inventory/inventory_manager.py:43-44 | a single product is selected exactly when it matches |
| InventoryStore.MatchingProductsAppend | inventory/inventory_manager.py:43-44 | selection distributes over concatenation, so the matches come in store order, each once |
| InventoryStore.SearchProduct | inventory/inventory_manager.py:41-48 | succeeds exactly when some product matches; then the i-th result is the info string of the i-th match in store order, one per match; otherwise the no-match error |
| InventoryStore.NameMatchesIffOccurs | inventory/inventory_manager.py:44 | a product matches exactly when the lower-cased keyword occurs as a block of the lower-cased name |
| InventoryStore.MatchingIgnoresKeywordCase | inventory/inventory_manager.py:44 | lower-casing the keyword beforehand selects the same products |
| InventoryStore.SearchIgnoresKeywordCase | inventory/inventory_manager.py:41-48 | a search gives the same result for a keyword and for its lower-cased form |
| InventoryStore.EmptyKeywordSelectsAll | inventory/inventory_manager.py:43-44 | the empty keyword selects every product, in store order |
| InventoryStore.EmptyKeywordMatchesAll | inventory/inventory_manager.py:41-48 | on a non-empty store the empty-keyword search succeeds and its i-th result is the info string of the i-th product |

## Left out

- Menus, CLI and GUI front ends (`cli.py`, `main*.py`, `menu/`), the
  dashboard, the logger, `inventory/user.py`, `inventory/user_inventory.py`
  and `data_handler.py`: not part of this model; file reading and writing
  is I/O.
- bcrypt: hashing and checking are parameters; salts and the actual hash
  function are not modelled, only that a password verifies against its own
  hash. `bcrypt.checkpw` raises `ValueError("Invalid salt")` when the stored
  password is not a bcrypt hash (a loaded record holding plaintext, say),
  after `login` has already reset an expired lock
  (user/user_manager.py:180-184); the boolean `verify` cannot raise, so that
  exception is not modelled.
- The wall clock: `datetime.now()` is the parameter `now`, in whole seconds;
  float timestamps and the `%H:%M:%S` formatting of the lock message are not
  modelled.
- Error messages are not modelled; each `ValueError` is a distinct error
  constructor. `TypeError`s from `isinstance` checks cannot arise in a typed
  model and are left out, as is the debugging `print` in the load loop.
- Character classes are ASCII: Python's Unicode `isspace`, `isdigit`,
  `isupper`, `islower` and `lower` are modelled on ASCII only.
- Products.Info: Python's `str` of a float price is a parameter, so the
  info string is exact only up to the rendering of the price.
- InventoryStore.TotalValue: prices are exact reals; float rounding in the
  sum is not modelled.
- The `lock_until` setter and `_validate_lock_until` only check Python
  types, so they always accept in the model; `get_user`, `list_users`,
  `is_user_logged_in` and `__repr__` are plain reads with nothing to prove.
- Aliasing: Python callers can keep a reference to a stored `Product` or
  `User` and mutate it (or rename a product so that its dict key goes
  stale); the model's values cannot be shared this way.
- `User.current_user` is shared by every `UserManager` in the process; the
  model keeps it per store.
- UserFields.NewUser: applies the corrected username rule, so it refuses a
  name with one trailing newline such as "abc\n", which the constructor as
  written accepts; `ValidUser` uses the same rule.
- UserFields.SetUsername: applies the corrected username rule and refuses
  "abc\n", which the setter as written accepts.
- UserStore.Register: applies the corrected username rule and refuses
  "abc\n", which `register` as written accepts.
- UserStore.UpdateUsername: applies the corrected username rule and refuses
  "abc\n", which `update_username` as written accepts.
- UserStore.LoadRecords: builds users with the corrected username rule, so a
  record named "abc\n", which the code as written loads, stops the load.
- UserStore.Load: same as `LoadRecords`; a document with a username "abc\n"
  fails to load where the code as written accepts it.
- `require_login` prints "You must be logged in to perform this action."
  (user/user_manager.py:9) on a refused call; the model only returns the
  store unchanged, as the wrapper's `None` leaves it, and writes nothing.
- Prices: `float('nan')` and `float('inf')` pass the `price < 0` checks of
  product.py but are not reals, so the model cannot express them; with a NaN
  price the Python total is NaN and "never negative" says nothing there.
- Products.UpdateQuantity: takes an integer; `update_quantity`
  (inventory/product.py:50-54) checks only `quantity < 0` and so also
  accepts a float quantity.
- UserStore.Load: a record is typed, so a missing key (`KeyError`) or a
  wrongly typed field cannot be expressed.

## Findings

| source | as written | input that shows it | evidently intended | confidence | as-written member | corrected member |
|---|---|---|---|---|---|---|
| user/user.py:65 | `re.match(r"^[a-zA-Z0-9_.-]+$", username)` lets one trailing newline through, because `$` also matches before a final "\n" | username "abc\n" | only letters, digits, `_`, `.` and `-` (anchor with `\Z` or use `re.fullmatch`) | high, not executed | UserFields.CheckUsernameAsWritten | UserFields.CheckUsername |

=== FILE: category.dfy ===
/** The Category entity of inventory/category.py and its two lookups in the
    category table. The table is the module-level list
    `inventory.data.categories`, which is not part of this model; it is a
    parameter here. */
module Categories {
  import opened Outcomes
  import opened Text

  datatype Category = Category(id: int, name: string)

  /** The `ValueError`s of inventory/category.py. */
  datatype CategoryError = CategoryIdNotPositive | CategoryNameBlank

  predicate ValidCategory(c: Category) {
    c.id > 0 && !Blank(c.name)
  }

  /** `Category(category_id, name)`: the id is checked first. */
  function NewCategory(id: int, name: string): (r: Result<Category, CategoryError>)
    ensures r.Ok? <==> ValidCategory(Category(id, name))
    ensures r.Ok? ==> r.value == Category(id, name)
    ensures id <= 0 ==> r == Err(CategoryIdNotPositive)
    ensures id > 0 && Blank(name) ==> r == Err(CategoryNameBlank)
  {
    if id <= 0 then Err(CategoryIdNotPositive)
    else if Blank(name) then Err(CategoryNameBlank)
    else Ok(Category(id, name))
  }

  /** The `name` setter: a blank name is refused and the category keeps its
      old one. The id has no setter and never changes. */
  function SetName(c: Category, name: string): (r: Result<Category, CategoryError>)
    ensures r.Ok? <==> !Blank(name)
    ensures r.Err? ==> r.error == CategoryNameBlank
    ensures r.Ok? ==> r.value.name == name && r.value.id == c.id
    ensures r.Ok? && ValidCategory(c) ==> ValidCategory(r.value)
  {
    if Blank(name) then Err(CategoryNameBlank) else Ok(c.(name := name))
  }

  /** One dict `{"id": ..., "name": ...}` of the category table. */
  datatype CategoryRow = CategoryRow(id: int, name: string)

  /** `is_valid_category`: membership of the id among the table's ids. */
  function IsValidCategory(table: seq<CategoryRow>, id: int): (r: bool)
    ensures r <==> exists i :: 0 <= i < |table| && table[i].id == id
  {
    var ids := seq(|table|, i requires 0 <= i < |table| => table[i].id);
    assert forall i :: 0 <= i < |table| ==> ids[i] == table[i].id;
    id in ids
  }

  /** `get_category_name_by_id`: the name of the first row with that id,
      or `None`. It finds a name exactly when `is_valid_category` holds. */
  function GetCategoryNameById(table: seq<CategoryRow>, id: int): (r: Option<string>)
    ensures r.Some? <==> IsValidCategory(table, id)
    ensures r.Some? ==> exists i :: 0 <= i < |table| && table[i].id == id && table[i].name == r.value
                                    && forall j :: 0 <= j < i ==> table[j].id != id
    decreases |table|
  {
    if |table| == 0 then None
    else if table[0].id == id then Some(table[0].name)
    else
      var r := GetCategoryNameById(table[1..], id);
      assert r.Some? ==> exists i :: 0 <= i < |table| && table[i].id == id && table[i].name == r.value
                                     && forall j :: 0 <= j < i ==> table[j].id != id by {
        if r.Some? {
          var i :| 0 <= i < |table[1..]| && table[1..][i].id == id && table[1..][i].name == r.value
                   && forall j :: 0 <= j < i ==> table[1..][j].id != id;
          assert forall j :: 1 <= j < i + 1 ==> table[j] == table[1..][j - 1];
        }
      }
      r
  }
}

=== FILE: inventory_manager.dfy ===
/** The product store of inventory/inventory_manager.py: a dict from product
    name to product, modelled as the products in insertion order, each keyed
    by its name. */
module InventoryStore {
  import opened Outcomes
  import opened Seqs
  import opened Text
  import opened Products

  datatype Inventory = Inventory(products: seq<Product>)

  /** `InventoryManager()`. */
  const EmptyInventory := Inventory([])

  /** The `ValueError`s the store raises or passes on. */
  datatype InventoryError =
    | ProductExists(name: string)
    | ProductNotFound(name: string)
    | InvalidUpdate(reason: ProductError)
    | NoProductsFound

  predicate HasName(ps: seq<Product>, name: string) {
    exists i :: 0 <= i < |ps| && ps[i].name == name
  }

  function IndexOfName(ps: seq<Product>, name: string): (r: Option<nat>)
    ensures r.Some? <==> HasName(ps, name)
    ensures r.Some? ==> r.value < |ps| && ps[r.value].name == name
  {
    FirstWhere(ps, (p: Product) => p.name == name)
  }

  /** Names are dict keys, so no two entries share one. */
  predicate DistinctNames(ps: seq<Product>) {
    forall i, j :: 0 <= i < j < |ps| ==> ps[i].name != ps[j].name
  }

  predicate Wf(inv: Inventory) { DistinctNames(inv.products) }

  /** The `products` property: the keys in insertion order. A name is
      listed exactly when the store holds a product under it. */
  function Keys(inv: Inventory): (r: seq<string>)
    ensures |r| == |inv.products|
    ensures forall i :: 0 <= i < |r| ==> r[i] == inv.products[i].name
    ensures forall n :: n in r <==> HasName(inv.products, n)
  {
    var r := seq(|inv.products|, i requires 0 <= i < |inv.products| => inv.products[i].name);
    assert forall i :: 0 <= i < |inv.products| ==> r[i] == inv.products[i].name;
    r
  }

  /** `add_product`: a product whose name is already a key is refused and
      the store is unchanged; otherwise exactly one entry is added, last. */
  function AddProduct(inv: Inventory, p: Product): (r: Result<Inventory, InventoryError>)
    ensures r.Ok? <==> !HasName(inv.products, p.name)
    ensures r.Err? ==> r.error == ProductExists(p.name)
    ensures r.Ok? ==> r.value.products == inv.products + [p]
    ensures r.Ok? ==> Keys(r.value) == Keys(inv) + [p.name]
    ensures r.Ok? && Wf(inv) ==> Wf(r.value)
  {
    if HasName(inv.products, p.name) then Err(ProductExists(p.name))
    else
      var ps := inv.products + [p];
      assert forall i :: 0 <= i < |inv.products| ==> ps[i] == inv.products[i];
      Ok(Inventory(ps))
  }

  /** `remove_product`: an unknown name is refused; otherwise that one entry
      is deleted and the others keep their order. */
  function RemoveProduct(inv: Inventory, name: string): (r: Result<Inventory, InventoryError>)
    ensures r.Ok? <==> HasName(inv.products, name)
    ensures r.Err? ==> r.error == ProductNotFound(name)
    ensures r.Ok? ==> exists i :: 0 <= i < |inv.products| && inv.products[i].name == name
                                  && r.value.products == RemoveAt(inv.products, i)
  {
    match IndexOfName(inv.products, name)
    case None => Err(ProductNotFound(name))
    case Some(i) => Ok(Inventory(RemoveAt(inv.products, i)))
  }

  /** In a well-formed store removal drops exactly the given key. */
  lemma RemoveProductExact(inv: Inventory, name: string)
    requires Wf(inv) && RemoveProduct(inv, name).Ok?
    ensures var inv' := RemoveProduct(inv, name).value;
      && Wf(inv')
      && !HasName(inv'.products, name)
      && forall n :: n != name ==> (HasName(inv'.products, n) <==> HasName(inv.products, n))
  {
    var i := IndexOfName(inv.products, name).value;
    var ps := inv.products;
    var ps' := RemoveAt(ps, i);
    assert RemoveProduct(inv, name).value.products == ps';
    forall n | n != name && HasName(ps, n) ensures HasName(ps', n) {
      var j :| 0 <= j < |ps| && ps[j].name == n;
      if j < i { assert ps'[j].name == n; } else { assert ps'[j - 1].name == n; }
    }
  }

  /** `update_product_quantity`: an unknown name, then a negative quantity,
      is refused with nothing changed; otherwise only that product's
      quantity changes. */
  function UpdateProductQuantity(inv: Inventory, name: string, quantity: int)
    : (r: Result<Inventory, InventoryError>)
    ensures !HasName(inv.products, name) ==> r == Err(ProductNotFound(name))
    ensures HasName(inv.products, name) && quantity < 0 ==> r == Err(InvalidUpdate(QuantityNegative))
    ensures r.Ok? <==> HasName(inv.products, name) && quantity >= 0
    ensures r.Ok? ==>
      var i := IndexOfName(inv.products, name).value;
      && |r.value.products| == |inv.products|
      && r.value.products[i] == inv.products[i].(quantity := quantity)
      && forall j :: 0 <= j < |inv.products| && j != i ==> r.value.products[j] == inv.products[j]
    ensures r.Ok? ==> Keys(r.value) == Keys(inv)
  {
    match IndexOfName(inv.products, name)
    case None => Err(ProductNotFound(name))
    case Some(i) =>
      match UpdateQuantity(inv.products[i], quantity)
      case Err(e) => Err(InvalidUpdate(e))
      case Ok(p) =>
        var r := Inventory(inv.products[i := p]);
        assert Keys(r) == Keys(inv) by {
          assert forall j :: 0 <= j < |inv.products| ==> r.products[j].name == inv.products[j].name;
        }
        Ok(r)
  }

  /** The message `get_product_info` returns for an unknown name. */
  function NotFoundMessage(name: string): string {
    "Product '" + name + "' not found in inventory."
  }

  /** `get_product_info`: never an error; the info string of the product
      under that key, or the not-found message. */
  function GetProductInfo(inv: Inventory, name: string, showPrice: real -> string): (r: string)
    ensures HasName(inv.products, name) ==>
      exists i :: 0 <= i < |inv.products| && inv.products[i].name == name
                  && r == Info(inv.products[i], showPrice)
    ensures !HasName(inv.products, name) ==> r == NotFoundMessage(name)
  {
    match IndexOfName(inv.products, name)
    case None => NotFoundMessage(name)
    case Some(i) => Info(inv.products[i], showPrice)
  }

  // --------------------------------------------------------------- value

  /** price × quantity of one product. */
  function Value(p: Product): real {
    p.price * p.quantity as real
  }

  /** Prices and quantities are non-negative, as the constructor and the
      two validated updates guarantee. */
  predicate NonNegative(ps: seq<Product>) {
    forall i :: 0 <= i < |ps| ==> ps[i].price >= 0.0 && ps[i].quantity >= 0
  }

  function SumValues(ps: seq<Product>): (r: real)
    ensures |ps| == 0 ==> r == 0.0
    ensures NonNegative(ps) ==> r >= 0.0
    decreases |ps|
  {
    if |ps| == 0 then 0.0
    else
      var p := ps[0];
      assert NonNegative(ps) ==> Value(p) >= 0.0 by {
        if NonNegative(ps) { assert p.price >= 0.0 && p.quantity >= 0; }
      }
      Value(p) + SumValues(ps[1..])
  }

  /** `get_total_inventory_value`: the sum of price × quantity over all
      products; 0 for an empty store and never negative when every product
      keeps the constructor's rules. */
  function TotalValue(inv: Inventory): (r: real)
    ensures |inv.products| == 0 ==> r == 0.0
    ensures NonNegative(inv.products) ==> r >= 0.0
  {
    SumValues(inv.products)
  }

  lemma {:induction false} SumValuesAppend(a: seq<Product>, b: seq<Product>)
    ensures SumValues(a + b) == SumValues(a) + SumValues(b)
    decreases |a|
  {
    if |a| == 0 {
      assert a + b == b;
    } else {
      assert (a + b)[1..] == a[1..] + b;
      SumValuesAppend(a[1..], b);
    }
  }

  lemma SumValuesSplit(ps: seq<Product>, i: nat)
    requires i < |ps|
    ensures SumValues(ps) == SumValues(ps[..i]) + Value(ps[i]) + SumValues(ps[i + 1..])
  {
    var tail := ps[i..];
    assert ps == ps[..i] + tail;
    SumValuesAppend(ps[..i], tail);
    assert tail[0] == ps[i] && tail[1..] == ps[i + 1..];
    assert SumValues(tail) == Value(ps[i]) + SumValues(ps[i + 1..]);
  }

  /** Adding a product adds its value to the total. */
  lemma AddProductValue(inv: Inventory, p: Product)
    requires AddProduct(inv, p).Ok?
    ensures TotalValue(AddProduct(inv, p).value) == TotalValue(inv) + Value(p)
  {
    SumValuesAppend(inv.products, [p]);
  }

  /** Removing a product takes its value off the total. */
  lemma RemoveProductValue(inv: Inventory, name: string)
    requires RemoveProduct(inv, name).Ok?
    ensures var i := IndexOfName(inv.products, name).value;
      TotalValue(RemoveProduct(inv, name).value) == TotalValue(inv) - Value(inv.products[i])
  {
    var i := IndexOfName(inv.products, name).value;
    var ps := inv.products;
    SumValuesSplit(ps, i);
    SumValuesAppend(ps[..i], ps[i + 1..]);
  }

  lemma SumValuesReplace(ps: seq<Product>, i: nat, p: Product)
    requires i < |ps|
    ensures SumValues(ps[i := p]) == SumValues(ps) - Value(ps[i]) + Value(p)
  {
    var ps' := ps[i := p];
    SumValuesSplit(ps, i);
    SumValuesSplit(ps', i);
    assert ps'[..i] == ps[..i];
    assert ps'[i + 1..] == ps[i + 1..];
  }

  /** Setting a quantity swaps that product's old value for its new one. */
  lemma UpdateQuantityValue(inv: Inventory, name: string, quantity: int)
    requires UpdateProductQuantity(inv, name, quantity).Ok?
    ensures var p := inv.products[IndexOfName(inv.products, name).value];
      TotalValue(UpdateProductQuantity(inv, name, quantity).value)
        == TotalValue(inv) - Value(p) + Value(p.(quantity := quantity))
  {
    var i := IndexOfName(inv.products, name).value;
    var p := inv.products[i];
    assert UpdateProductQuantity(inv, name, quantity).value.products
        == inv.products[i := p.(quantity := quantity)];
    SumValuesReplace(inv.products, i, p.(quantity := quantity));
  }

  /** The two products of the store's test: 999.99 × 50 + 699.99 × 200. */
  lemma TwoProductValuation()
    ensures TotalValue(Inventory([Product(1, "Laptop", 999.99, 50, "Computers"),
                                  Product(2, "Smartphone", 699.99, 200, "Phones")]))
            == 999.99 * 50.0 + 699.99 * 200.0
  {
  }

  // -------------------------------------------------------------- search

  /** `keyword.lower() in product.name.lower()`. */
  predicate NameMatches(p: Product, keyword: string) {
    Contains(Lower(p.name), Lower(keyword))
  }

  /** The products whose names match, in store order. */
  function MatchingProducts(ps: seq<Product>, keyword: string): (r: seq<Product>)
    ensures forall p :: p in r <==> p in ps && NameMatches(p, keyword)
    ensures |r| <= |ps|
    decreases |ps|
  {
    if |ps| == 0 then []
    else
      var rest := MatchingProducts(ps[1..], keyword);
      assert forall p :: p in ps <==> p == ps[0] || p in ps[1..];
      if NameMatches(ps[0], keyword) then [ps[0]] + rest else rest
  }

  /** One product is selected exactly when it matches. */
  lemma MatchingProductsSingle(p: Product, keyword: string)
    ensures MatchingProducts([p], keyword) == if NameMatches(p, keyword) then [p] else []
  {
    assert [p][1..] == [];
  }

  /** Selection distributes over concatenation, so it keeps store order and
      takes each matching entry exactly once. */
  lemma {:induction false} MatchingProductsAppend(a: seq<Product>, b: seq<Product>, keyword: string)
    ensures MatchingProducts(a + b, keyword) == MatchingProducts(a, keyword) + MatchingProducts(b, keyword)
    decreases |a|
  {
    if |a| == 0 {
      assert a + b == b;
    } else {
      assert (a + b)[0] == a[0];
      assert (a + b)[1..] == a[1..] + b;
      MatchingProductsAppend(a[1..], b, keyword);
    }
  }

  /** `search_product`: the info strings of the products whose lower-cased
      name contains the lower-cased keyword, in store order; when none does,
      an error rather than an empty list. */
  function SearchProduct(inv: Inventory, keyword: string, showPrice: real -> string)
    : (r: Result<seq<string>, InventoryError>)
    ensures r.Ok? <==> exists p :: p in inv.products && NameMatches(p, keyword)
    ensures r.Err? ==> r.error == NoProductsFound
    ensures r.Ok? ==> forall s :: s in r.value <==>
      exists p :: p in inv.products && NameMatches(p, keyword) && s == Info(p, showPrice)
    ensures r.Ok? ==>
      var found := MatchingProducts(inv.products, keyword);
      && |r.value| == |found|
      && forall i :: 0 <= i < |found| ==> r.value[i] == Info(found[i], showPrice)
  {
    var found := MatchingProducts(inv.products, keyword);
    var results := Map(found, (p: Product) => Info(p, showPrice));
    if |results| > 0 then
      assert found[0] in found;
      Ok(results)
    else Err(NoProductsFound)
  }

  /** Matching is a case-insensitive substring test: the lower-cased
      keyword occurs as one block of the lower-cased name. */
  lemma NameMatchesIffOccurs(p: Product, keyword: string)
    ensures NameMatches(p, keyword) <==> exists i :: OccursAt(Lower(p.name), Lower(keyword), i)
  {
    ContainsIffOccurs(Lower(p.name), Lower(keyword));
  }

  /** Lower-casing the keyword first selects the same products. */
  lemma {:induction false} MatchingIgnoresKeywordCase(ps: seq<Product>, keyword: string)
    ensures MatchingProducts(ps, Lower(keyword)) == MatchingProducts(ps, keyword)
    decreases |ps|
  {
    if |ps| > 0 {
      LowerIdempotent(keyword);
      assert NameMatches(ps[0], Lower(keyword)) == NameMatches(ps[0], keyword);
      MatchingIgnoresKeywordCase(ps[1..], keyword);
    }
  }

  /** The case of the keyword does not matter. */
  lemma SearchIgnoresKeywordCase(inv: Inventory, keyword: string, showPrice: real -> string)
    ensures SearchProduct(inv, Lower(keyword), showPrice) == SearchProduct(inv, keyword, showPrice)
  {
    MatchingIgnoresKeywordCase(inv.products, keyword);
  }

  /** The empty keyword selects every product, in store order. */
  lemma {:induction false} EmptyKeywordSelectsAll(ps: seq<Product>)
    ensures MatchingProducts(ps, "") == ps
    decreases |ps|
  {
    if |ps| > 0 {
      EmptyIsEverywhere(Lower(ps[0].name));
      assert Lower("") == "";
      EmptyKeywordSelectsAll(ps[1..]);
      assert ps == [ps[0]] + ps[1..];
    }
  }

  /** The empty keyword finds every product of a non-empty store: one info
      string per product, in store order. */
  lemma EmptyKeywordMatchesAll(inv: Inventory, showPrice: real -> string)
    requires |inv.products| > 0
    ensures SearchProduct(inv, "", showPrice).Ok?
    ensures |SearchProduct(inv, "", showPrice).value| == |inv.products|
    ensures forall i :: 0 <= i < |inv.products| ==>
      SearchProduct(inv, "", showPrice).value[i] == Info(inv.products[i], showPrice)
  {
    EmptyKeywordSelectsAll(inv.products);
  }
}

=== FILE: outcomes.dfy ===
/** Failure-carrying values shared by every module: the model's stand-in for
    Python's `None` and for raised exceptions. */
module Outcomes {

  /** A value that may be absent (Python `None`). */
  datatype Option<+T> = None | Some(value: T)

  /** Either a value, or the error a Python call would have raised. */
  datatype Result<+T, +E> = Ok(value: T) | Err(error: E)

  /** The outcome of one validation rule: it passes, or it names the
      reason the value is rejected. */
  datatype Check<+E> = Pass | Fail(error: E)
}

=== FILE: product.dfy ===
/** The Product entity of inventory/product.py: a validating constructor, a
    validating `name` setter, validated quantity and price updates, an
    unvalidated category update, and the info string. */
module Products {
  import opened Outcomes
  import opened Text

  /** `price` is a Python int or float, modelled exactly as a real. */
  datatype Product = Product(id: int, name: string, price: real, quantity: int, category: string)

  /** The `ValueError`s of inventory/product.py. */
  datatype ProductError =
    | ProductIdNotPositive
    | ProductNameBlank
    | PriceNegative
    | QuantityNegative
    | CategoryBlank

  /** What the constructor guarantees of a new product. */
  predicate ValidProduct(p: Product) {
    p.id > 0 && !Blank(p.name) && p.price >= 0.0 && p.quantity >= 0 && !Blank(p.category)
  }

  /** `Product(id, name, price, quantity, category)`: the checks run in this
      order and the first failing one is reported. */
  function NewProduct(id: int, name: string, price: real, quantity: int, category: string)
    : (r: Result<Product, ProductError>)
    ensures r.Ok? <==> ValidProduct(Product(id, name, price, quantity, category))
    ensures r.Ok? ==> r.value == Product(id, name, price, quantity, category)
    ensures id <= 0 ==> r == Err(ProductIdNotPositive)
    ensures id > 0 && Blank(name) ==> r == Err(ProductNameBlank)
    ensures id > 0 && !Blank(name) && price < 0.0 ==> r == Err(PriceNegative)
    ensures id > 0 && !Blank(name) && price >= 0.0 && quantity < 0 ==> r == Err(QuantityNegative)
    ensures id > 0 && !Blank(name) && price >= 0.0 && quantity >= 0 && Blank(category) ==>
      r == Err(CategoryBlank)
  {
    if id <= 0 then Err(ProductIdNotPositive)
    else if Blank(name) then Err(ProductNameBlank)
    else if price < 0.0 then Err(PriceNegative)
    else if quantity < 0 then Err(QuantityNegative)
    else if Blank(category) then Err(CategoryBlank)
    else Ok(Product(id, name, price, quantity, category))
  }

  /** The `name` setter: a blank name is refused and the product keeps its
      old one; otherwise only the name changes. */
  function SetName(p: Product, name: string): (r: Result<Product, ProductError>)
    ensures r.Ok? <==> !Blank(name)
    ensures r.Err? ==> r.error == ProductNameBlank
    ensures r.Ok? ==> r.value.name == name
    ensures r.Ok? ==> r.value.id == p.id && r.value.price == p.price
                      && r.value.quantity == p.quantity && r.value.category == p.category
    ensures r.Ok? && ValidProduct(p) ==> ValidProduct(r.value)
  {
    if Blank(name) then Err(ProductNameBlank) else Ok(p.(name := name))
  }

  /** `update_quantity`: a negative quantity is refused; otherwise the
      quantity becomes exactly the given one and nothing else changes. */
  function UpdateQuantity(p: Product, quantity: int): (r: Result<Product, ProductError>)
    ensures r.Ok? <==> quantity >= 0
    ensures r.Err? ==> r.error == QuantityNegative
    ensures r.Ok? ==> r.value.quantity == quantity
    ensures r.Ok? ==> r.value.id == p.id && r.value.name == p.name
                      && r.value.price == p.price && r.value.category == p.category
    ensures r.Ok? && ValidProduct(p) ==> ValidProduct(r.value)
  {
    if quantity < 0 then Err(QuantityNegative) else Ok(p.(quantity := quantity))
  }

  /** `update_price`: a negative price is refused; otherwise the price
      becomes exactly the given one and nothing else changes. */
  function UpdatePrice(p: Product, price: real): (r: Result<Product, ProductError>)
    ensures r.Ok? <==> price >= 0.0
    ensures r.Err? ==> r.error == PriceNegative
    ensures r.Ok? ==> r.value.price == price
    ensures r.Ok? ==> r.value.id == p.id && r.value.name == p.name
                      && r.value.quantity == p.quantity && r.value.category == p.category
    ensures r.Ok? && ValidProduct(p) ==> ValidProduct(r.value)
  {
    if price < 0.0 then Err(PriceNegative) else Ok(p.(price := price))
  }

  /** `update_category`: no validation at all. It keeps a product valid only
      when the new category is not blank. */
  function UpdateCategory(p: Product, category: string): (r: Product)
    ensures r.category == category
    ensures r.id == p.id && r.name == p.name && r.price == p.price && r.quantity == p.quantity
    ensures ValidProduct(p) ==> (ValidProduct(r) <==> !Blank(category))
  {
    p.(category := category)
  }

  /** The constructor's category rule is not kept by `update_category`. */
  lemma UpdateCategoryCanBreakValidity()
    ensures var p := Product(1, "Laptop", 999.99, 50, "Computers");
      ValidProduct(p) && !ValidProduct(UpdateCategory(p, " "))
  {
    var p := Product(1, "Laptop", 999.99, 50, "Computers");
    assert !IsSpace(p.name[0]) && !IsSpace(p.category[0]);
  }

  const IdLabel := "ProductID: "
  const NameLabel := ", Product name: "
  const PriceLabel := ", price: "
  const QuantityLabel := ", quantity: "
  const CategoryLabel := ", category: "

  /** `get_info`. `showPrice` is Python's `str` of the price (a float
      rendering the model leaves open); ints are rendered in decimal. */
  function Info(p: Product, showPrice: real -> string): (s: string)
    ensures |s| >= |IdLabel| + |CategoryLabel| + |p.category|
    ensures s[..|IdLabel|] == IdLabel
    ensures s[|s| - |p.category| ..] == p.category
    ensures s[|s| - |p.category| - |CategoryLabel| .. |s| - |p.category|] == CategoryLabel
  {
    var tail := CategoryLabel + p.category;
    var s := IdLabel + IntToString(p.id) + InfoAfterId(p, showPrice);
    assert s == (IdLabel + IntToString(p.id) + NameLabel + p.name + PriceLabel + showPrice(p.price)
                 + QuantityLabel + IntToString(p.quantity)) + tail;
    s
  }

  /** The part of the info string after the id. */
  function InfoAfterId(p: Product, showPrice: real -> string): (s: string)
    ensures |s| > 0 && s[0] == ','
  {
    NameLabel + p.name + PriceLabel + showPrice(p.price)
      + QuantityLabel + IntToString(p.quantity) + CategoryLabel + p.category
  }

  /** The info string starts with its label and the id in decimal, and the
      id can be read back from the digits that follow the label. */
  lemma InfoIdRecoverable(p: Product, showPrice: real -> string)
    requires p.id >= 0
    ensures var s := Info(p, showPrice);
      && s[..|IdLabel|] == IdLabel
      && DigitsValue(LeadingDigits(s[|IdLabel|..])) == p.id
  {
    var s := Info(p, showPrice);
    var digits := IntToString(p.id);
    var tail := InfoAfterId(p, showPrice);
    assert s[|IdLabel|..] == digits + tail;
    LeadingDigitsOfConcat(digits, tail);
    NatToStringRoundTrip(p.id);
  }

  /** Products with different non-negative ids never share an info string,
      so search results tell products apart. */
  lemma InfoDistinguishesIds(p: Product, q: Product, showPrice: real -> string)
    requires p.id >= 0 && q.id >= 0
    requires Info(p, showPrice) == Info(q, showPrice)
    ensures p.id == q.id
  {
    InfoIdRecoverable(p, showPrice);
    InfoIdRecoverable(q, showPrice);
  }
}

=== FILE: seqs.dfy ===
/** Sequence helpers used by the stores, which keep their entries in
    insertion order as a Python dict does. */
module Seqs {
  import opened Outcomes

  /** The first index whose element satisfies `p`, scanning from the
      front, like Python's `next(x for x in ... if p(x))`. */
  function FirstWhere<T>(s: seq<T>, p: T -> bool): (r: Option<nat>)
    ensures r.Some? ==> r.value < |s| && p(s[r.value])
    ensures r.Some? ==> forall j :: 0 <= j < r.value ==> !p(s[j])
    ensures r.None? <==> forall j :: 0 <= j < |s| ==> !p(s[j])
    decreases |s|
  {
    if |s| == 0 then None
    else if p(s[0]) then Some(0)
    else match FirstWhere(s[1..], p)
      case None => None
      case Some(i) => Some(i + 1)
  }

  /** `s` with the element at `i` deleted; the others keep their order. */
  function RemoveAt<T>(s: seq<T>, i: nat): (r: seq<T>)
    requires i < |s|
    ensures |r| == |s| - 1
    ensures forall j :: 0 <= j < i ==> r[j] == s[j]
    ensures forall j :: i <= j < |r| ==> r[j] == s[j + 1]
  {
    s[..i] + s[i + 1..]
  }

  /** `[f(x) for x in s]`: one image per element, in order; a value is an
      image exactly when some element maps to it. */
  function Map<T(!new), U(!new)>(s: seq<T>, f: T -> U): (r: seq<U>)
    ensures |r| == |s|
    ensures forall i :: 0 <= i < |s| ==> r[i] == f(s[i])
    ensures forall y :: y in r <==> exists x :: x in s && y == f(x)
    decreases |s|
  {
    if |s| == 0 then []
    else
      var rest := Map(s[1..], f);
      assert forall x :: x in s <==> x == s[0] || x in s[1..];
      [f(s[0])] + rest
  }
}

=== FILE: text.dfy ===
/** The string primitives the Python code relies on, over ASCII:
    `str.strip`-blankness, `isdigit`/`isupper`/`islower`, `lower`,
    substring search with `in`, and `str(int)`. */
module Text {

  /** `c.isspace()` restricted to ASCII: space, tab through carriage
      return, and the separators 0x1C-0x1F. */
  predicate IsSpace(c: char) {
    c == ' ' || ('\t' <= c <= '\r') || ('\U{1C}' <= c <= '\U{1F}')
  }

  /** `not s.strip()`: the string is empty or all whitespace. */
  predicate Blank(s: string) {
    forall i :: 0 <= i < |s| ==> IsSpace(s[i])
  }

  predicate IsDigit(c: char) { '0' <= c <= '9' }
  predicate IsUpper(c: char) { 'A' <= c <= 'Z' }
  predicate IsLower(c: char) { 'a' <= c <= 'z' }

  predicate AllDigits(s: string) {
    forall i :: 0 <= i < |s| ==> IsDigit(s[i])
  }

  /** `c.lower()` for an ASCII character. */
  function LowerChar(c: char): (r: char)
    ensures !IsUpper(r)
    ensures IsUpper(c) ==> IsLower(r) && r as int - c as int == 'a' as int - 'A' as int
    ensures !IsUpper(c) ==> r == c
  {
    if IsUpper(c) then (c as int - 'A' as int + 'a' as int) as char else c
  }

  /** `s.lower()`. */
  function Lower(s: string): (r: string)
    ensures |r| == |s|
    ensures forall i :: 0 <= i < |s| ==> r[i] == LowerChar(s[i])
  {
    seq(|s|, i requires 0 <= i < |s| => LowerChar(s[i]))
  }

  /** Lower-casing twice is lower-casing once. */
  lemma LowerIdempotent(s: string)
    ensures Lower(Lower(s)) == Lower(s)
  {
    assert forall i :: 0 <= i < |s| ==> Lower(Lower(s))[i] == Lower(s)[i];
  }

  /** `needle` sits in `hay` starting at index `i`. */
  predicate OccursAt(hay: string, needle: string, i: int) {
    0 <= i && i + |needle| <= |hay| && hay[i..i + |needle|] == needle
  }

  /** Python's `needle in hay` on strings: try each start position from
      the left. */
  predicate Contains(hay: string, needle: string)
    decreases |hay|
  {
    needle <= hay || (|hay| > 0 && Contains(hay[1..], needle))
  }

  /** The scan finds the needle exactly when it occurs somewhere. */
  lemma {:induction false} ContainsIffOccurs(hay: string, needle: string)
    ensures Contains(hay, needle) <==> exists i :: OccursAt(hay, needle, i)
    decreases |hay|
  {
    if needle <= hay {
      assert OccursAt(hay, needle, 0);
    } else if |hay| > 0 {
      ContainsIffOccurs(hay[1..], needle);
      if Contains(hay[1..], needle) {
        var j :| OccursAt(hay[1..], needle, j);
        assert hay[1..][j..j + |needle|] == hay[j + 1..j + 1 + |needle|];
        assert OccursAt(hay, needle, j + 1);
      }
      forall i | OccursAt(hay, needle, i)
        ensures OccursAt(hay[1..], needle, i - 1)
      {
        assert hay[1..][i - 1..i - 1 + |needle|] == hay[i..i + |needle|];
      }
    }
  }

  /** The empty string is in every string (`"" in s` is `True`). */
  lemma EmptyIsEverywhere(hay: string)
    ensures Contains(hay, "")
  {
  }

  function DigitChar(d: nat): (c: char)
    requires d < 10
    ensures IsDigit(c)
  {
    ('0' as int + d) as char
  }

  function DigitValue(c: char): (d: nat)
    requires IsDigit(c)
    ensures d < 10
  {
    c as int - '0' as int
  }

  /** `str(n)` for a natural number: decimal digits, most significant first. */
  function NatToString(n: nat): (s: string)
    ensures |s| > 0 && AllDigits(s)
    decreases n
  {
    if n < 10 then [DigitChar(n)] else NatToString(n / 10) + [DigitChar(n % 10)]
  }

  /** `str(n)` for any int. */
  function IntToString(n: int): (s: string)
    ensures n >= 0 ==> AllDigits(s)
    ensures n < 0 ==> |s| > 0 && s[0] == '-'
  {
    if n < 0 then "-" + NatToString(-n) else NatToString(n)
  }

  /** The number a string of decimal digits denotes. */
  function DigitsValue(s: string): nat
    requires AllDigits(s)
    decreases |s|
  {
    if |s| == 0 then 0 else DigitsValue(s[..|s| - 1]) * 10 + DigitValue(s[|s| - 1])
  }

  /** Reading back the decimal rendering of `n` gives `n`. */
  lemma {:induction false} NatToStringRoundTrip(n: nat)
    ensures DigitsValue(NatToString(n)) == n
    decreases n
  {
    if n >= 10 {
      NatToStringRoundTrip(n / 10);
      var s := NatToString(n);
      assert s[..|s| - 1] == NatToString(n / 10);
    }
  }

  /** The longest prefix of `s` made of decimal digits. */
  function LeadingDigits(s: string): (r: string)
    ensures r <= s && AllDigits(r)
    ensures |r| < |s| ==> !IsDigit(s[|r|])
    decreases |s|
  {
    if |s| > 0 && IsDigit(s[0]) then [s[0]] + LeadingDigits(s[1..]) else ""
  }

  /** A run of digits followed by a non-digit is read back as that run. */
  lemma {:induction false} LeadingDigitsOfConcat(a: string, b: string)
    requires AllDigits(a)
    requires |b| == 0 || !IsDigit(b[0])
    ensures LeadingDigits(a + b) == a
    decreases |a|
  {
    if |a| > 0 {
      assert (a + b)[1..] == a[1..] + b;
      LeadingDigitsOfConcat(a[1..], b);
    } else {
      assert a + b == b;
    }
  }
}

=== FILE: user.dfy ===
/** The User entity of user/user.py: the field validators, the validating
    constructor and the validating property setters. */
module UserFields {
  import opened Outcomes
  import opened Seqs
  import opened Text

  /** Why a validator rejects a value. Each constructor stands for one
      `ValueError` message of user/user.py. A wrong Python type (`TypeError`)
      cannot occur here: Dafny's types rule it out. */
  datatype FieldError =
    | UserIdNotPositive
    | UsernameBlank | UsernameTooShort | UsernameTooLong | UsernameBadChars
    | PasswordBlank | PasswordTooShort | PasswordNoDigit | PasswordNoUpper
    | PasswordNoLower | PasswordNoSpecial
    | EmailBlank | EmailBadFormat
    | PhoneBlank | PhoneTooShort | PhoneNotDigits
    | FailedAttemptsNegative

  const MinUsernameLength := 3
  const MaxUsernameLength := 20
  const MinPasswordLength := 8
  const MinPhoneLength := 3
  /** The characters that count as "special" in a password. */
  const PasswordSpecials := "!@#$%^&*()-_+="

  /** A user as stored: `failedAttempts` is a `nat` because the constructor
      and its setter refuse negative counts; `lockUntil` is a POSIX time in
      seconds, or `None` when the account was never locked. */
  datatype User = User(
    userId: int,
    username: string,
    password: string,
    email: Option<string>,
    phone: Option<string>,
    failedAttempts: nat,
    lockUntil: Option<int>)

  // ---------------------------------------------------------------- user id

  function CheckUserId(userId: int): (r: Check<FieldError>)
    ensures r.Pass? <==> userId > 0
  {
    if userId <= 0 then Fail(UserIdNotPositive) else Pass
  }

  // --------------------------------------------------------------- username

  /** The character class `[a-zA-Z0-9_.-]`. */
  predicate UsernameChar(c: char) {
    IsLower(c) || IsUpper(c) || IsDigit(c) || c == '_' || c == '.' || c == '-'
  }

  /** `s` is one or more characters of the class, and nothing else. */
  predicate UsernamePattern(s: string) {
    |s| > 0 && forall i :: 0 <= i < |s| ==> UsernameChar(s[i])
  }

  /** `re.match(r"^[a-zA-Z0-9_.-]+$", s)` as Python evaluates it: without
      MULTILINE, `$` matches at the end of the string and also just before
      a final newline, so one trailing "\n" slips past the class. */
  predicate UsernamePatternAsWritten(s: string) {
    UsernamePattern(s) || (|s| >= 2 && s[|s| - 1] == '\n' && UsernamePattern(s[..|s| - 1]))
  }

  /** `_validate_username` exactly as written, including the trailing
      newline the pattern lets through. */
  function CheckUsernameAsWritten(s: string): (r: Check<FieldError>)
    ensures r.Pass? <==>
      && MinUsernameLength <= |s| <= MaxUsernameLength
      && (forall i :: 0 <= i < |s| - 1 ==> UsernameChar(s[i]))
      && (UsernameChar(s[|s| - 1]) || s[|s| - 1] == '\n')
  {
    if Blank(s) then
      assert |s| == 0 || !UsernameChar(s[0]);
      Fail(UsernameBlank)
    else if |s| < MinUsernameLength then Fail(UsernameTooShort)
    else if |s| > MaxUsernameLength then Fail(UsernameTooLong)
    else if !UsernamePatternAsWritten(s) then Fail(UsernameBadChars)
    else Pass
  }

  /** `_validate_username` as intended: the whole name must match the class.
      The rest of the model uses this rule. */
  function CheckUsername(s: string): (r: Check<FieldError>)
    ensures r.Pass? <==>
      && MinUsernameLength <= |s| <= MaxUsernameLength
      && (forall i :: 0 <= i < |s| ==> UsernameChar(s[i]))
    ensures r.Pass? ==> CheckUsernameAsWritten(s).Pass?
  {
    if Blank(s) then
      assert |s| == 0 || !UsernameChar(s[0]);
      Fail(UsernameBlank)
    else if |s| < MinUsernameLength then Fail(UsernameTooShort)
    else if |s| > MaxUsernameLength then Fail(UsernameTooLong)
    else if !UsernamePattern(s) then Fail(UsernameBadChars)
    else Pass
  }

  /** The discrepancy: "abc\n" is accepted as written but is not made of
      username characters only. */
  lemma TrailingNewlineSlipsThrough()
    ensures CheckUsernameAsWritten("abc\n").Pass?
    ensures CheckUsername("abc\n") == Fail(UsernameBadChars)
  {
    assert "abc\n"[..3] == "abc";
    assert !UsernameChar("abc\n"[3]);
  }

  // --------------------------------------------------------------- password

  predicate IsSpecial(c: char) { c in PasswordSpecials }

  predicate HasDigit(s: string) { exists i :: 0 <= i < |s| && IsDigit(s[i]) }
  predicate HasUpper(s: string) { exists i :: 0 <= i < |s| && IsUpper(s[i]) }
  predicate HasLower(s: string) { exists i :: 0 <= i < |s| && IsLower(s[i]) }
  predicate HasSpecial(s: string) { exists i :: 0 <= i < |s| && IsSpecial(s[i]) }

  /** `_validate_password`: the strength rule, applied to plaintext and, by
      the constructor and setter, to the stored hash as well. */
  function CheckPassword(s: string): (r: Check<FieldError>)
    ensures r.Pass? <==>
      |s| >= MinPasswordLength && HasDigit(s) && HasUpper(s) && HasLower(s) && HasSpecial(s)
  {
    if Blank(s) then Fail(PasswordBlank)
    else if |s| < MinPasswordLength then Fail(PasswordTooShort)
    else if !HasDigit(s) then Fail(PasswordNoDigit)
    else if !HasUpper(s) then Fail(PasswordNoUpper)
    else if !HasLower(s) then Fail(PasswordNoLower)
    else if !HasSpecial(s) then Fail(PasswordNoSpecial)
    else Pass
  }

  // ------------------------------------------------------------------ email

  predicate NoAt(s: string) { forall i :: 0 <= i < |s| ==> s[i] != '@' }

  /** A '.' with at least one character on each side. */
  predicate HasInnerDot(d: string) { exists k :: 0 < k < |d| - 1 && d[k] == '.' }

  /** The matcher for `^[^@]+@[^@]+\.[^@]+$`: the '@' the pattern consumes
      must be the first one, nothing after it may be an '@', and the
      remainder needs an inner '.'. */
  predicate EmailPattern(s: string) {
    match FirstWhere(s, (c: char) => c == '@')
    case None => false
    case Some(a) => a > 0 && NoAt(s[a + 1..]) && HasInnerDot(s[a + 1..])
  }

  /** What the pattern describes, by positions: the only '@' is at `a` with
      text before it, and a '.' at `k` has text between it and the '@' and
      text after it. */
  predicate EmailShapeAt(s: string, a: int, k: int) {
    && 0 < a && a + 1 < k < |s| - 1
    && s[a] == '@' && s[k] == '.'
    && forall i :: 0 <= i < |s| && i != a ==> s[i] != '@'
  }

  lemma EmailPatternIffShape(s: string)
    ensures EmailPattern(s) <==> exists a, k :: EmailShapeAt(s, a, k)
  {
    var fa := FirstWhere(s, (c: char) => c == '@');
    if EmailPattern(s) {
      var a := fa.value;
      var d := s[a + 1..];
      var k' :| 0 < k' < |d| - 1 && d[k'] == '.';
      forall i | 0 <= i < |s| && i != a
        ensures s[i] != '@'
      {
        if i > a {
          assert s[i] == d[i - a - 1];
        }
      }
      assert EmailShapeAt(s, a, a + 1 + k');
    }
    if exists a, k :: EmailShapeAt(s, a, k) {
      var a, k :| EmailShapeAt(s, a, k);
      assert fa == Some(a);
      var d := s[a + 1..];
      assert d[k - a - 1] == s[k];
      assert NoAt(d);
    }
  }

  /** `_validate_email`: `None` is allowed; otherwise the address must be
      non-blank and match the pattern. */
  function CheckEmail(email: Option<string>): (r: Check<FieldError>)
    ensures r.Pass? <==> email.None? || exists a, k :: EmailShapeAt(email.value, a, k)
  {
    match email
    case None => Pass
    case Some(s) =>
      EmailPatternIffShape(s);
      if Blank(s) then Fail(EmailBlank)
      else if !EmailPattern(s) then Fail(EmailBadFormat)
      else Pass
  }

  // ------------------------------------------------------------------ phone

  /** `_validate_phone`: `None` is allowed; otherwise at least three
      characters, all decimal digits. */
  function CheckPhone(phone: Option<string>): (r: Check<FieldError>)
    ensures r.Pass? <==> phone.None? || (|phone.value| >= MinPhoneLength && AllDigits(phone.value))
  {
    match phone
    case None => Pass
    case Some(s) =>
      if Blank(s) then
        assert |s| == 0 || !IsDigit(s[0]);
        Fail(PhoneBlank)
      else if |s| < MinPhoneLength then Fail(PhoneTooShort)
      else if !AllDigits(s) then Fail(PhoneNotDigits)
      else Pass
  }

  // ---------------------------------------------------------- counters

  function CheckFailedAttempts(n: int): (r: Check<FieldError>)
    ensures r.Pass? <==> n >= 0
  {
    if n < 0 then Fail(FailedAttemptsNegative) else Pass
  }

  // ---------------------------------------------------- entity invariant

  /** Every field satisfies its validator. */
  predicate ValidUser(u: User) {
    && CheckUserId(u.userId).Pass?
    && CheckUsername(u.username).Pass?
    && CheckPassword(u.password).Pass?
    && CheckEmail(u.email).Pass?
    && CheckPhone(u.phone).Pass?
  }

  /** The constructor's validators, in the order `__init__` runs them
      (`_validate_lock_until` only checks the Python type and always passes). */
  function ConstructorChecks(userId: int, username: string, password: string,
                             email: Option<string>, phone: Option<string>,
                             failedAttempts: int): seq<Check<FieldError>>
  {
    [CheckUserId(userId), CheckUsername(username), CheckPassword(password),
     CheckEmail(email), CheckPhone(phone), CheckFailedAttempts(failedAttempts)]
  }

  /** `User(...)`: a failing validator creates no user and reports the first
      rule that fails; otherwise the user holds exactly the given values. */
  function NewUser(userId: int, username: string, password: string,
                   email: Option<string>, phone: Option<string>,
                   failedAttempts: int, lockUntil: Option<int>): (r: Result<User, FieldError>)
    ensures var cs := ConstructorChecks(userId, username, password, email, phone, failedAttempts);
      r.Ok? <==> forall j :: 0 <= j < |cs| ==> cs[j].Pass?
    ensures var cs := ConstructorChecks(userId, username, password, email, phone, failedAttempts);
      r.Err? ==> exists j :: 0 <= j < |cs| && cs[j] == Fail(r.error) && forall i :: 0 <= i < j ==> cs[i].Pass?
    ensures r.Ok? ==> ValidUser(r.value)
    ensures r.Ok? ==> && r.value.userId == userId && r.value.username == username
                      && r.value.password == password && r.value.email == email
                      && r.value.phone == phone && r.value.failedAttempts == failedAttempts
                      && r.value.lockUntil == lockUntil
  {
    var cs := ConstructorChecks(userId, username, password, email, phone, failedAttempts);
    if cs[0].Fail? then Err(cs[0].error)
    else if cs[1].Fail? then Err(cs[1].error)
    else if cs[2].Fail? then Err(cs[2].error)
    else if cs[3].Fail? then Err(cs[3].error)
    else if cs[4].Fail? then Err(cs[4].error)
    else if cs[5].Fail? then Err(cs[5].error)
    else Ok(User(userId, username, password, email, phone, failedAttempts, lockUntil))
  }

  // ---------------------------------------------------------------- setters
  // A setter validates first; a rejected value yields `Err` and the caller
  // keeps the user it had. There is no setter for `userId`.

  function SetUsername(u: User, v: string): (r: Result<User, FieldError>)
    ensures r.Ok? <==> CheckUsername(v).Pass?
    ensures r.Err? ==> r.error == CheckUsername(v).error
    ensures r.Ok? ==> r.value.username == v && r.value == u.(username := r.value.username)
    ensures r.Ok? && ValidUser(u) ==> ValidUser(r.value)
  {
    match CheckUsername(v)
    case Fail(e) => Err(e)
    case Pass => Ok(u.(username := v))
  }

  function SetPassword(u: User, v: string): (r: Result<User, FieldError>)
    ensures r.Ok? <==> CheckPassword(v).Pass?
    ensures r.Err? ==> r.error == CheckPassword(v).error
    ensures r.Ok? ==> r.value.password == v && r.value == u.(password := r.value.password)
    ensures r.Ok? && ValidUser(u) ==> ValidUser(r.value)
  {
    match CheckPassword(v)
    case Fail(e) => Err(e)
    case Pass => Ok(u.(password := v))
  }

  function SetEmail(u: User, v: Option<string>): (r: Result<User, FieldError>)
    ensures r.Ok? <==> CheckEmail(v).Pass?
    ensures r.Err? ==> r.error == CheckEmail(v).error
    ensures r.Ok? ==> r.value.email == v && r.value == u.(email := r.value.email)
    ensures r.Ok? && ValidUser(u) ==> ValidUser(r.value)
  {
    match CheckEmail(v)
    case Fail(e) => Err(e)
    case Pass => Ok(u.(email := v))
  }

  function SetPhone(u: User, v: Option<string>): (r: Result<User, FieldError>)
    ensures r.Ok? <==> CheckPhone(v).Pass?
    ensures r.Err? ==> r.error == CheckPhone(v).error
    ensures r.Ok? ==> r.value.phone == v && r.value == u.(phone := r.value.phone)
    ensures r.Ok? && ValidUser(u) ==> ValidUser(r.value)
  {
    match CheckPhone(v)
    case Fail(e) => Err(e)
    case Pass => Ok(u.(phone := v))
  }

  function SetFailedAttempts(u: User, v: int): (r: Result<User, FieldError>)
    ensures r.Ok? <==> v >= 0
    ensures r.Err? ==> r.error == FailedAttemptsNegative
    ensures r.Ok? ==> r.value.failedAttempts == v && r.value == u.(failedAttempts := r.value.failedAttempts)
    ensures r.Ok? && ValidUser(u) ==> ValidUser(r.value)
  {
    if v < 0 then Err(FailedAttemptsNegative) else Ok(u.(failedAttempts := v))
  }
}

=== FILE: user_manager.dfy ===
/** The user store of user/user_manager.py: registration, removal, the
    login state machine with its lazily evaluated lockout, the session-gated
    profile updates, and the JSON export/load of the user database.

    The dict `_users` is a sequence in insertion order whose entries are
    keyed by their `userId`. The process-wide `User.current_user` is the
    `current` field: the id of the logged-in user. Time is the parameter
    `now` (POSIX seconds) and bcrypt is the pair of parameters `hash` and
    `verify`. */
module UserStore {
  import opened Outcomes
  import opened Seqs
  import opened UserFields

  /** Failed logins that trigger a lock. */
  const MaxFailedAttempts := 3
  /** Length of a lock: `timedelta(minutes=2)`. */
  const LockSeconds := 120

  /** The `ValueError`s the manager raises. */
  datatype UserError =
    | Invalid(field: FieldError)
    | UsernameTaken(username: string)
    | PasswordMismatch
    | DuplicateUserId(userId: int)
    | RemovingCurrentUser
    | UnknownUserId(userId: int)
    | UsernameNotFound
    | AccountLocked(until: int)
    | TooManyFailedAttempts
    | WrongPassword

  datatype Manager = Manager(users: seq<User>, current: Option<int>)

  /** `UserManager()` in a process where nobody is logged in. */
  const Empty := Manager([], None)

  /** The state after a call together with its outcome, for the calls that
      change the store and then raise (login, load). */
  datatype Reply<+T> = Reply(manager: Manager, result: Result<T, UserError>)

  /** `hash_password`: plaintext to stored hash. */
  type Hasher = string -> string
  /** `check_password(hashed, plain)`. */
  type Verifier = (string, string) -> bool

  /** The one property of bcrypt the model relies on: a password verifies
      against its own hash. */
  ghost predicate HashSound(hash: Hasher, verify: Verifier) {
    forall p :: verify(hash(p), p)
  }

  // ---------------------------------------------------------------- lookups

  predicate HasId(users: seq<User>, userId: int) {
    exists i :: 0 <= i < |users| && users[i].userId == userId
  }

  function IndexOfId(users: seq<User>, userId: int): (r: Option<nat>)
    ensures r.Some? <==> HasId(users, userId)
    ensures r.Some? ==> r.value < |users| && users[r.value].userId == userId
  {
    FirstWhere(users, (u: User) => u.userId == userId)
  }

  predicate UsernameInUse(users: seq<User>, name: string) {
    exists i :: 0 <= i < |users| && users[i].username == name
  }

  /** The user `login` finds: the first in insertion order with that name. */
  function IndexOfUsername(users: seq<User>, name: string): (r: Option<nat>)
    ensures r.Some? <==> UsernameInUse(users, name)
    ensures r.Some? ==> r.value < |users| && users[r.value].username == name
    ensures r.Some? ==> forall j :: 0 <= j < r.value ==> users[j].username != name
  {
    FirstWhere(users, (u: User) => u.username == name)
  }

  // ------------------------------------------------------------- invariants

  predicate DistinctIds(users: seq<User>) {
    forall i, j :: 0 <= i < j < |users| ==> users[i].userId != users[j].userId
  }

  predicate UniqueUsernames(users: seq<User>) {
    forall i, j :: 0 <= i < j < |users| ==> users[i].username != users[j].username
  }

  predicate AllValid(users: seq<User>) {
    forall i :: 0 <= i < |users| ==> ValidUser(users[i])
  }

  /** What every reachable store satisfies: each user passed its
      validators, ids are keys (distinct), and the logged-in user is in the
      store. Unique usernames are NOT part of it: loading does not check them. */
  predicate Wf(m: Manager) {
    && AllValid(m.users)
    && DistinctIds(m.users)
    && (m.current.Some? ==> HasId(m.users, m.current.value))
  }

  // ------------------------------------------------------------ id policy

  /** `max(self._users.keys(), default=0)`. */
  function MaxId(users: seq<User>): (r: int)
    ensures |users| == 0 ==> r == 0
    ensures forall i :: 0 <= i < |users| ==> users[i].userId <= r
    ensures |users| > 0 ==> HasId(users, r)
    decreases |users|
  {
    if |users| == 0 then 0
    else if |users| == 1 then users[0].userId
    else
      var rest := MaxId(users[1..]);
      if users[0].userId >= rest then users[0].userId else rest
  }

  /** The id `register` gives the next user: one more than the largest id
      in use (1 for an empty store), hence never one already in use, and
      positive whenever the existing ids are. */
  function NextId(users: seq<User>): (r: int)
    ensures forall i :: 0 <= i < |users| ==> users[i].userId < r
    ensures |users| > 0 ==> HasId(users, r - 1)
    ensures !HasId(users, r)
    ensures AllValid(users) ==> r > 0
    ensures |users| == 0 ==> r == 1
  {
    MaxId(users) + 1
  }

  /** The id policy is not monotone: once the user holding the largest id
      is removed, and the id just below it is taken (or it was 1), the next
      registration gets that same id again. */
  lemma RemovedTopIdIsReused(users: seq<User>, i: nat)
    requires i < |users|
    requires AllValid(users) && DistinctIds(users)
    requires users[i].userId == MaxId(users)
    requires users[i].userId == 1 || HasId(users, users[i].userId - 1)
    ensures NextId(RemoveAt(users, i)) == users[i].userId
  {
    var rest := RemoveAt(users, i);
    var top := users[i].userId;
    forall j | 0 <= j < |rest| ensures 0 < rest[j].userId < top {
      var k := if j < i then j else j + 1;
      assert rest[j] == users[k] && k != i;
      assert ValidUser(users[k]);
    }
    if top > 1 {
      var k :| 0 <= k < |users| && users[k].userId == top - 1;
      assert k != i;
      var j := if k < i then k else k - 1;
      assert rest[j] == users[k];
    }
  }

  // ----------------------------------------------------------- registration

  /** `check_username_availability`: `True`, or an error when any user,
      whoever it is, already holds the name. */
  function CheckUsernameAvailability(users: seq<User>, name: string): (r: Result<bool, UserError>)
    ensures r.Ok? <==> forall i :: 0 <= i < |users| ==> users[i].username != name
    ensures r.Ok? ==> r.value
    ensures r.Err? ==> r.error == UsernameTaken(name)
  {
    if UsernameInUse(users, name) then Err(UsernameTaken(name)) else Ok(true)
  }

  /** `check_password_match`. */
  function CheckPasswordMatch(password: string, confirm: string): (r: Result<bool, UserError>)
    ensures r.Ok? <==> password == confirm
    ensures r.Ok? ==> r.value
    ensures r.Err? ==> r.error == PasswordMismatch
  {
    if password != confirm then Err(PasswordMismatch) else Ok(true)
  }

  /** The checks `register` makes before it hashes the password. */
  predicate RegistrationFieldsPass(users: seq<User>, username: string, password: string,
                                   confirm: string, email: Option<string>, phone: Option<string>) {
    && CheckUsername(username).Pass?
    && !UsernameInUse(users, username)
    && password == confirm
    && CheckPassword(password).Pass?
    && CheckEmail(email).Pass?
    && CheckPhone(phone).Pass?
  }

  /** Every check `register` makes, including the User constructor's
      re-validation of the new id and of the hash it stores as password. */
  predicate RegistrationAccepted(users: seq<User>, username: string, password: string,
                                 confirm: string, email: Option<string>,
                                 phone: Option<string>, hash: Hasher) {
    && RegistrationFieldsPass(users, username, password, confirm, email, phone)
    && NextId(users) > 0
    && CheckPassword(hash(password)).Pass?
  }

  datatype Registration = Registration(manager: Manager, user: User)

  /** `register`: all checks run before anything is inserted, so a failure
      returns no new state. On success exactly one user is appended, with the
      next id, the hashed password, no failed attempts and no lock. */
  function Register(m: Manager, username: string, password: string, confirm: string,
                    email: Option<string>, phone: Option<string>, hash: Hasher)
    : (r: Result<Registration, UserError>)
    ensures r.Ok? <==> RegistrationAccepted(m.users, username, password, confirm, email, phone, hash)
    ensures r.Ok? ==>
      && r.value.user == User(NextId(m.users), username, hash(password), email, phone, 0, None)
      && r.value.manager == Manager(m.users + [r.value.user], m.current)
    ensures CheckUsername(username).Fail? ==> r == Err(Invalid(CheckUsername(username).error))
    ensures CheckUsername(username).Pass? && UsernameInUse(m.users, username) ==>
      r == Err(UsernameTaken(username))
    ensures CheckUsername(username).Pass? && !UsernameInUse(m.users, username) && password != confirm ==>
      r == Err(PasswordMismatch)
    ensures CheckUsername(username).Pass? && !UsernameInUse(m.users, username) && password == confirm
            && CheckPassword(password).Fail? ==>
      r == Err(Invalid(CheckPassword(password).error))
    ensures CheckUsername(username).Pass? && !UsernameInUse(m.users, username) && password == confirm
            && CheckPassword(password).Pass? && CheckEmail(email).Fail? ==>
      r == Err(Invalid(CheckEmail(email).error))
    ensures CheckUsername(username).Pass? && !UsernameInUse(m.users, username) && password == confirm
            && CheckPassword(password).Pass? && CheckEmail(email).Pass? && CheckPhone(phone).Fail? ==>
      r == Err(Invalid(CheckPhone(phone).error))
    ensures RegistrationFieldsPass(m.users, username, password, confirm, email, phone) && NextId(m.users) <= 0 ==>
      r == Err(Invalid(CheckUserId(NextId(m.users)).error))
    ensures RegistrationFieldsPass(m.users, username, password, confirm, email, phone) && NextId(m.users) > 0
            && CheckPassword(hash(password)).Fail? ==>
      r == Err(Invalid(CheckPassword(hash(password)).error))
  {
    if CheckUsername(username).Fail? then Err(Invalid(CheckUsername(username).error))
    else if CheckUsernameAvailability(m.users, username).Err? then Err(UsernameTaken(username))
    else if CheckPasswordMatch(password, confirm).Err? then Err(PasswordMismatch)
    else if CheckPassword(password).Fail? then Err(Invalid(CheckPassword(password).error))
    else if CheckEmail(email).Fail? then Err(Invalid(CheckEmail(email).error))
    else if CheckPhone(phone).Fail? then Err(Invalid(CheckPhone(phone).error))
    else
      var hashed := hash(password);
      match NewUser(NextId(m.users), username, hashed, email, phone, 0, None)
      case Err(e) => Err(Invalid(e))
      case Ok(u) => Ok(Registration(m.(users := m.users + [u]), u))
  }

  lemma RegisterPreservesInvariants(m: Manager, username: string, password: string, confirm: string,
                                    email: Option<string>, phone: Option<string>, hash: Hasher)
    requires Wf(m)
    ensures var r := Register(m, username, password, confirm, email, phone, hash);
      r.Ok? ==>
        && Wf(r.value.manager)
        && (UniqueUsernames(m.users) ==> UniqueUsernames(r.value.manager.users))
  {
    var r := Register(m, username, password, confirm, email, phone, hash);
    if r.Err? { return; }
    var reg := r.value;
    var u := reg.user;
    var users' := m.users + [u];
    assert reg.manager.users == users';
    assert ValidUser(u);
    assert AllValid(users') by {
      forall j | 0 <= j < |users'| ensures ValidUser(users'[j]) {
        if j < |m.users| { assert users'[j] == m.users[j]; }
      }
    }
    assert DistinctIds(users') by {
      forall i, j | 0 <= i < j < |users'| ensures users'[i].userId != users'[j].userId {
        if j == |m.users| {
          assert users'[i] == m.users[i];
        } else {
          assert users'[i] == m.users[i] && users'[j] == m.users[j];
        }
      }
    }
    if m.current.Some? {
      var k :| 0 <= k < |m.users| && m.users[k].userId == m.current.value;
      assert users'[k].userId == m.current.value;
    }
    if UniqueUsernames(m.users) {
      forall i, j | 0 <= i < j < |users'| ensures users'[i].username != users'[j].username {
        if j == |m.users| {
          assert users'[i] == m.users[i];
        } else {
          assert users'[i] == m.users[i] && users'[j] == m.users[j];
        }
      }
    }
  }

  // ---------------------------------------------------------------- removal

  /** `remove_user`: the logged-in user cannot be removed (checked first),
      an unknown id is an error, otherwise that one entry is deleted. */
  function RemoveUser(m: Manager, userId: int): (r: Result<Manager, UserError>)
    ensures m.current == Some(userId) ==> r == Err(RemovingCurrentUser)
    ensures m.current != Some(userId) && !HasId(m.users, userId) ==> r == Err(UnknownUserId(userId))
    ensures r.Ok? <==> m.current != Some(userId) && HasId(m.users, userId)
    ensures r.Ok? ==>
      && r.value.current == m.current
      && exists i :: 0 <= i < |m.users| && m.users[i].userId == userId && r.value.users == RemoveAt(m.users, i)
  {
    if m.current == Some(userId) then Err(RemovingCurrentUser)
    else match IndexOfId(m.users, userId)
      case None => Err(UnknownUserId(userId))
      case Some(i) => Ok(m.(users := RemoveAt(m.users, i)))
  }

  /** In a well-formed store the removed id is gone, every other id stays,
      and the invariants survive. */
  lemma RemoveUserExact(m: Manager, userId: int)
    requires Wf(m)
    ensures RemoveUser(m, userId).Ok? ==>
      var m' := RemoveUser(m, userId).value;
      && !HasId(m'.users, userId)
      && (forall id :: id != userId ==> (HasId(m'.users, id) <==> HasId(m.users, id)))
      && Wf(m')
      && (UniqueUsernames(m.users) ==> UniqueUsernames(m'.users))
  {
    if RemoveUser(m, userId).Err? {
      return;
    }
    var i := IndexOfId(m.users, userId).value;
    assert RemoveUser(m, userId).value == m.(users := RemoveAt(m.users, i));
    RemoveAtIds(m.users, i);
    RemoveAtKeepsInvariants(m.users, i);
  }

  /** Deleting entry `i` keeps every other id; with distinct ids, the
      deleted one is gone. */
  lemma RemoveAtIds(users: seq<User>, i: nat)
    requires i < |users|
    ensures forall id :: HasId(users, id) && id != users[i].userId ==> HasId(RemoveAt(users, i), id)
    ensures forall id :: HasId(RemoveAt(users, i), id) ==> HasId(users, id)
    ensures DistinctIds(users) ==> !HasId(RemoveAt(users, i), users[i].userId)
  {
    var users' := RemoveAt(users, i);
    forall id | HasId(users, id) && id != users[i].userId ensures HasId(users', id) {
      var j :| 0 <= j < |users| && users[j].userId == id;
      if j < i { assert users'[j].userId == id; } else { assert users'[j - 1].userId == id; }
    }
    forall id | HasId(users', id) ensures HasId(users, id) {
      var j :| 0 <= j < |users'| && users'[j].userId == id;
      if j < i { assert users[j].userId == id; } else { assert users[j + 1].userId == id; }
    }
    if DistinctIds(users) {
      forall j | 0 <= j < |users'| ensures users'[j].userId != users[i].userId {
        if j < i { assert users'[j] == users[j]; } else { assert users'[j] == users[j + 1]; }
      }
    }
  }

  /** Deleting an entry keeps validity, distinct ids and unique names. */
  lemma RemoveAtKeepsInvariants(users: seq<User>, i: nat)
    requires i < |users|
    ensures AllValid(users) ==> AllValid(RemoveAt(users, i))
    ensures DistinctIds(users) ==> DistinctIds(RemoveAt(users, i))
    ensures UniqueUsernames(users) ==> UniqueUsernames(RemoveAt(users, i))
  {
    var users' := RemoveAt(users, i);
    forall a, b | 0 <= a < b < |users'|
      ensures exists a0, b0 :: 0 <= a0 < b0 < |users| && users'[a] == users[a0] && users'[b] == users[b0]
    {
      var a0 := if a < i then a else a + 1;
      var b0 := if b < i then b else b + 1;
      assert users'[a] == users[a0] && users'[b] == users[b0];
    }
    if AllValid(users) {
      forall j | 0 <= j < |users'| ensures ValidUser(users'[j]) {
        if j < i { assert users'[j] == users[j]; } else { assert users'[j] == users[j + 1]; }
      }
    }
  }

  // ------------------------------------------------------------------ login

  /** `user.lock_until and now < lock_until`: a lock time of 0 is falsy in
      Python and never locks. */
  predicate LockActive(u: User, now: int) {
    u.lockUntil.Some? && u.lockUntil.value != 0 && now < u.lockUntil.value
  }

  predicate LockExpired(u: User, now: int) {
    u.lockUntil.Some? && u.lockUntil.value != 0 && now >= u.lockUntil.value
  }

  /** An expired lock is cleared and the counter restarts, before the
      password is looked at. */
  function ClearExpiredLock(u: User, now: int): (r: User)
    ensures !LockActive(u, now) ==> !LockActive(r, now) && !LockExpired(r, now)
    ensures LockExpired(u, now) ==> r.failedAttempts == 0 && r.lockUntil.None?
    ensures !LockExpired(u, now) ==> r == u
    ensures r == u.(failedAttempts := r.failedAttempts, lockUntil := r.lockUntil)
  {
    if LockExpired(u, now) then u.(failedAttempts := 0, lockUntil := None) else u
  }

  /** Two user lists agree on everything but the login counters. */
  predicate SameAccounts(a: seq<User>, b: seq<User>) {
    && |a| == |b|
    && forall j :: 0 <= j < |a| ==>
         b[j] == a[j].(failedAttempts := b[j].failedAttempts, lockUntil := b[j].lockUntil)
  }

  /** `login`. A locked account refuses without touching anything. Otherwise
      an expired lock is reset, then a wrong password counts one more failure
      (locking the account for two minutes at the third) and a right one
      clears the counters and opens the session. Failures after the lock
      check still keep their counter changes, as the Python object is
      mutated before the exception is raised. */
  function Login(m: Manager, username: string, password: string, now: int, verify: Verifier)
    : (r: Reply<User>)
    ensures var found := IndexOfUsername(m.users, username);
      && (found.None? ==> r == Reply(m, Err(UsernameNotFound)))
      && (found.Some? && LockActive(m.users[found.value], now) ==>
            r == Reply(m, Err(AccountLocked(m.users[found.value].lockUntil.value))))
    ensures SameAccounts(m.users, r.manager.users)
    ensures forall j :: 0 <= j < |m.users| && IndexOfUsername(m.users, username) != Some(j) ==>
      r.manager.users[j] == m.users[j]
    ensures r.result.Ok? <==>
      var found := IndexOfUsername(m.users, username);
      && found.Some?
      && !LockActive(m.users[found.value], now)
      && verify(m.users[found.value].password, password)
    ensures r.result.Ok? ==>
      var i := IndexOfUsername(m.users, username).value;
      && r.result.value == r.manager.users[i]
      && r.result.value.failedAttempts == 0
      && r.result.value.lockUntil.None?
      && r.manager.current == Some(m.users[i].userId)
    ensures r.result.Err? ==> r.manager.current == m.current
    ensures var found := IndexOfUsername(m.users, username);
      found.Some? && !LockActive(m.users[found.value], now)
      && !verify(m.users[found.value].password, password) ==>
        var before := ClearExpiredLock(m.users[found.value], now);
        var after := r.manager.users[found.value];
        && after.failedAttempts == before.failedAttempts + 1
        && (after.failedAttempts >= MaxFailedAttempts ==>
              after.lockUntil == Some(now + LockSeconds) && r.result == Err(TooManyFailedAttempts))
        && (after.failedAttempts < MaxFailedAttempts ==>
              after.lockUntil == before.lockUntil && r.result == Err(WrongPassword))
  {
    match IndexOfUsername(m.users, username)
    case None => Reply(m, Err(UsernameNotFound))
    case Some(i) =>
      var u := m.users[i];
      if LockActive(u, now) then Reply(m, Err(AccountLocked(u.lockUntil.value)))
      else
        var u1 := ClearExpiredLock(u, now);
        if !verify(u1.password, password) then
          var n := u1.failedAttempts + 1;
          if n >= MaxFailedAttempts then
            var locked := u1.(failedAttempts := n, lockUntil := Some(now + LockSeconds));
            Reply(m.(users := m.users[i := locked]), Err(TooManyFailedAttempts))
          else
            Reply(m.(users := m.users[i := u1.(failedAttempts := n)]), Err(WrongPassword))
        else
          var u2 := u1.(failedAttempts := 0, lockUntil := None);
          Reply(Manager(m.users[i := u2], Some(u2.userId)), Ok(u2))
  }

  /** Lists that agree on the accounts have the same lookups and the same
      invariants. */
  lemma SameAccountsLookups(a: seq<User>, b: seq<User>, name: string)
    requires SameAccounts(a, b)
    ensures IndexOfUsername(a, name) == IndexOfUsername(b, name)
    ensures forall id :: HasId(a, id) <==> HasId(b, id)
    ensures AllValid(a) ==> AllValid(b)
    ensures DistinctIds(a) ==> DistinctIds(b)
    ensures UniqueUsernames(a) ==> UniqueUsernames(b)
  {
    var ia := IndexOfUsername(a, name);
    var ib := IndexOfUsername(b, name);
    if ia.Some? {
      assert b[ia.value].username == name;
    }
    if ib.Some? {
      assert a[ib.value].username == name;
    }
    forall id | HasId(b, id) ensures HasId(a, id) {
      var j :| 0 <= j < |b| && b[j].userId == id;
      assert a[j].userId == id;
    }
    forall id | HasId(a, id) ensures HasId(b, id) {
      var j :| 0 <= j < |a| && a[j].userId == id;
      assert b[j].userId == id;
    }
    if AllValid(a) {
      forall j | 0 <= j < |b| ensures ValidUser(b[j]) {
        assert ValidUser(a[j]);
      }
    }
  }

  lemma LoginPreservesInvariants(m: Manager, username: string, password: string, now: int, verify: Verifier)
    requires Wf(m)
    ensures var m' := Login(m, username, password, now, verify).manager;
      && Wf(m')
      && (UniqueUsernames(m.users) ==> UniqueUsernames(m'.users))
  {
    var r := Login(m, username, password, now, verify);
    SameAccountsLookups(m.users, r.manager.users, username);
    if r.result.Ok? {
      var i := IndexOfUsername(m.users, username).value;
      assert r.manager.users[i].userId == m.users[i].userId;
    }
  }

  // ---------------------------------------------------------------- session

  predicate IsLoggedIn(m: Manager) { m.current.Some? }

  /** `logout` behind `require_login`: without a session the gate returns
      `None` without doing anything; with one the session ends. Either way
      nobody is logged in afterwards and the users are untouched. */
  function Logout(m: Manager): (r: Manager)
    ensures !IsLoggedIn(r)
    ensures r.users == m.users
    ensures !IsLoggedIn(m) ==> r == m
  {
    if !IsLoggedIn(m) then m else m.(current := None)
  }

  /** Applies `f` to the first entry with id `userId`: the object
      `User.current_user` points to. With no such entry nothing in the store
      changes, as mutating an object outside the dict changes nothing in it. */
  function UpdateEntry(users: seq<User>, userId: int, f: User -> User): (r: seq<User>)
    ensures |r| == |users|
    ensures forall j :: 0 <= j < |users| ==>
      r[j] == if IndexOfId(users, userId) == Some(j) then f(users[j]) else users[j]
  {
    match IndexOfId(users, userId)
    case None => users
    case Some(i) => users[i := f(users[i])]
  }

  /** `update_username`: a no-op without a session or for an empty/absent
      name; otherwise the name is validated and must be held by nobody,
      including the logged-in user. */
  function UpdateUsername(m: Manager, newName: Option<string>): (r: Result<Manager, UserError>)
    ensures !IsLoggedIn(m) ==> r == Ok(m)
    ensures newName.None? || newName == Some("") ==> r == Ok(m)
    ensures IsLoggedIn(m) && newName.Some? && newName.value != "" ==>
      var n := newName.value;
      && (CheckUsername(n).Fail? ==> r == Err(Invalid(CheckUsername(n).error)))
      && (CheckUsername(n).Pass? && UsernameInUse(m.users, n) ==> r == Err(UsernameTaken(n)))
      && (r.Ok? <==> CheckUsername(n).Pass? && !UsernameInUse(m.users, n))
      && (r.Ok? ==> r.value == m.(users := UpdateEntry(m.users, m.current.value, (u: User) => u.(username := n))))
  {
    if !IsLoggedIn(m) then Ok(m)
    else if newName.None? || newName.value == "" then Ok(m)
    else
      var n := newName.value;
      if CheckUsername(n).Fail? then Err(Invalid(CheckUsername(n).error))
      else if CheckUsernameAvailability(m.users, n).Err? then Err(UsernameTaken(n))
      else Ok(m.(users := UpdateEntry(m.users, m.current.value, (u: User) => u.(username := n))))
  }

  /** The logged-in user cannot "rename" to the name they already have. */
  lemma OwnNameIsTaken(m: Manager)
    requires Wf(m) && IsLoggedIn(m)
    ensures var u := m.users[IndexOfId(m.users, m.current.value).value];
      UpdateUsername(m, Some(u.username)) == Err(UsernameTaken(u.username))
  {
    var i := IndexOfId(m.users, m.current.value).value;
    assert ValidUser(m.users[i]);
  }

  /** `update_user_password`: confirmation and strength are checked, then the
      hash is stored through the password setter, which re-applies the
      strength rule to the hash. */
  function UpdatePassword(m: Manager, newPassword: string, confirm: string, hash: Hasher)
    : (r: Result<Manager, UserError>)
    ensures !IsLoggedIn(m) ==> r == Ok(m)
    ensures IsLoggedIn(m) ==>
      && (newPassword != confirm ==> r == Err(PasswordMismatch))
      && (newPassword == confirm && CheckPassword(newPassword).Fail? ==>
            r == Err(Invalid(CheckPassword(newPassword).error)))
      && (newPassword == confirm && CheckPassword(newPassword).Pass? && CheckPassword(hash(newPassword)).Fail? ==>
            r == Err(Invalid(CheckPassword(hash(newPassword)).error)))
      && (r.Ok? <==> newPassword == confirm && CheckPassword(newPassword).Pass?
                     && CheckPassword(hash(newPassword)).Pass?)
      && (r.Ok? ==> r.value == m.(users := UpdateEntry(m.users, m.current.value,
                                                       (u: User) => u.(password := hash(newPassword)))))
  {
    if !IsLoggedIn(m) then Ok(m)
    else if CheckPasswordMatch(newPassword, confirm).Err? then Err(PasswordMismatch)
    else if CheckPassword(newPassword).Fail? then Err(Invalid(CheckPassword(newPassword).error))
    else
      var hashed := hash(newPassword);
      // the `password` setter validates the hash before storing it
      if CheckPassword(hashed).Fail? then Err(Invalid(CheckPassword(hashed).error))
      else Ok(m.(users := UpdateEntry(m.users, m.current.value, (u: User) => u.(password := hashed))))
  }

  /** `update_user_email`: `None` clears the address. */
  function UpdateEmail(m: Manager, email: Option<string>): (r: Result<Manager, UserError>)
    ensures !IsLoggedIn(m) ==> r == Ok(m)
    ensures IsLoggedIn(m) ==>
      && (r.Ok? <==> CheckEmail(email).Pass?)
      && (r.Err? ==> r.error == Invalid(CheckEmail(email).error))
      && (r.Ok? ==> r.value == m.(users := UpdateEntry(m.users, m.current.value, (u: User) => u.(email := email))))
  {
    if !IsLoggedIn(m) then Ok(m)
    else match CheckEmail(email)
      case Fail(e) => Err(Invalid(e))
      case Pass => Ok(m.(users := UpdateEntry(m.users, m.current.value, (u: User) => u.(email := email))))
  }

  /** `update_user_phone`: `None` clears the number. */
  function UpdatePhone(m: Manager, phone: Option<string>): (r: Result<Manager, UserError>)
    ensures !IsLoggedIn(m) ==> r == Ok(m)
    ensures IsLoggedIn(m) ==>
      && (r.Ok? <==> CheckPhone(phone).Pass?)
      && (r.Err? ==> r.error == Invalid(CheckPhone(phone).error))
      && (r.Ok? ==> r.value == m.(users := UpdateEntry(m.users, m.current.value, (u: User) => u.(phone := phone))))
  {
    if !IsLoggedIn(m) then Ok(m)
    else match CheckPhone(phone)
      case Fail(e) => Err(Invalid(e))
      case Pass => Ok(m.(users := UpdateEntry(m.users, m.current.value, (u: User) => u.(phone := phone))))
  }

  /** Replacing one entry by a valid user with the same id keeps the store
      well formed. */
  lemma ReplaceEntryPreservesWf(m: Manager, i: nat, u: User)
    requires Wf(m) && i < |m.users|
    requires ValidUser(u) && u.userId == m.users[i].userId
    ensures Wf(m.(users := m.users[i := u]))
  {
    var users' := m.users[i := u];
    assert forall j :: 0 <= j < |users'| ==> users'[j].userId == m.users[j].userId;
    if m.current.Some? {
      var k :| 0 <= k < |m.users| && m.users[k].userId == m.current.value;
      assert users'[k].userId == m.current.value;
    }
  }

  /** A new username must be unused, so renaming keeps the store well
      formed and the names unique. */
  lemma UpdateUsernamePreservesInvariants(m: Manager, newName: Option<string>)
    requires Wf(m)
    requires UpdateUsername(m, newName).Ok?
    ensures var m' := UpdateUsername(m, newName).value;
      Wf(m') && (UniqueUsernames(m.users) ==> UniqueUsernames(m'.users))
  {
    if IsLoggedIn(m) && newName.Some? && newName.value != "" {
      var i := IndexOfId(m.users, m.current.value).value;
      var n := newName.value;
      var u' := m.users[i].(username := n);
      assert ValidUser(m.users[i]);
      assert UpdateEntry(m.users, m.current.value, (v: User) => v.(username := n)) == m.users[i := u'];
      ReplaceEntryPreservesWf(m, i, u');
      if UniqueUsernames(m.users) {
        var users' := m.users[i := u'];
        forall a, b | 0 <= a < b < |users'| ensures users'[a].username != users'[b].username {
          if a == i {
            assert m.users[b].username != n;
          } else if b == i {
            assert m.users[a].username != n;
          }
        }
      }
    }
  }

  /** The password, email and phone updates keep the store well formed and
      leave every username as it was. */
  lemma UpdatePasswordPreservesInvariants(m: Manager, newPassword: string, confirm: string, hash: Hasher)
    requires Wf(m)
    requires UpdatePassword(m, newPassword, confirm, hash).Ok?
    ensures var m' := UpdatePassword(m, newPassword, confirm, hash).value;
      Wf(m') && SameNames(m.users, m'.users)
  {
    if IsLoggedIn(m) {
      var i := IndexOfId(m.users, m.current.value).value;
      var h := hash(newPassword);
      var u' := m.users[i].(password := h);
      assert ValidUser(m.users[i]);
      assert UpdateEntry(m.users, m.current.value, (v: User) => v.(password := h)) == m.users[i := u'];
      ReplaceEntryPreservesWf(m, i, u');
    }
  }

  lemma UpdateEmailPreservesInvariants(m: Manager, email: Option<string>)
    requires Wf(m)
    requires UpdateEmail(m, email).Ok?
    ensures var m' := UpdateEmail(m, email).value;
      Wf(m') && SameNames(m.users, m'.users)
  {
    if IsLoggedIn(m) {
      var i := IndexOfId(m.users, m.current.value).value;
      var u' := m.users[i].(email := email);
      assert ValidUser(m.users[i]);
      assert UpdateEntry(m.users, m.current.value, (v: User) => v.(email := email)) == m.users[i := u'];
      ReplaceEntryPreservesWf(m, i, u');
    }
  }

  lemma UpdatePhonePreservesInvariants(m: Manager, phone: Option<string>)
    requires Wf(m)
    requires UpdatePhone(m, phone).Ok?
    ensures var m' := UpdatePhone(m, phone).value;
      Wf(m') && SameNames(m.users, m'.users)
  {
    if IsLoggedIn(m) {
      var i := IndexOfId(m.users, m.current.value).value;
      var u' := m.users[i].(phone := phone);
      assert ValidUser(m.users[i]);
      assert UpdateEntry(m.users, m.current.value, (v: User) => v.(phone := phone)) == m.users[i := u'];
      ReplaceEntryPreservesWf(m, i, u');
    }
  }

  /** Same length, same username at every position. */
  predicate SameNames(a: seq<User>, b: seq<User>) {
    |a| == |b| && forall j :: 0 <= j < |a| ==> a[j].username == b[j].username
  }

  // ------------------------------------------------------------------- JSON

  /** One entry of the "users" list of the user document, field for field. */
  datatype UserRecord = UserRecord(
    userId: int,
    username: string,
    password: string,
    email: Option<string>,
    phone: Option<string>,
    failedAttempts: int,
    lockUntil: Option<int>)

  /** The user document; `users == None` is a document without a "users"
      key, which `data.get("users", [])` reads as an empty list. */
  datatype UserDocument = UserDocument(users: Option<seq<UserRecord>>)

  /** `User(**record)` as `load_data_from_json` calls it. */
  function FromRecord(rec: UserRecord): Result<User, FieldError> {
    NewUser(rec.userId, rec.username, rec.password, rec.email, rec.phone,
            rec.failedAttempts, rec.lockUntil)
  }

  /** The dict `export_to_json` writes for one user; a valid user is
      rebuilt from it unchanged. */
  function ToRecord(u: User): (rec: UserRecord)
    ensures ValidUser(u) ==> FromRecord(rec) == Ok(u)
  {
    UserRecord(u.userId, u.username, u.password, u.email, u.phone, u.failedAttempts, u.lockUntil)
  }

  function Records(users: seq<User>): (recs: seq<UserRecord>)
    ensures |recs| == |users|
    ensures forall i :: 0 <= i < |users| ==> recs[i] == ToRecord(users[i])
  {
    seq(|users|, i requires 0 <= i < |users| => ToRecord(users[i]))
  }

  /** `export_to_json`: every user, in store order. */
  function Export(m: Manager): (d: UserDocument)
    ensures d.users.Some? && |d.users.value| == |m.users|
    ensures forall i :: 0 <= i < |m.users| ==> d.users.value[i].userId == m.users[i].userId
  {
    UserDocument(Some(Records(m.users)))
  }

  /** Why `load_data_from_json` stops at `rec`, given the users loaded so
      far: the constructor rejects a field, or the id is already a key. */
  function LoadFailure(users: seq<User>, rec: UserRecord): Option<UserError> {
    match FromRecord(rec)
    case Err(e) => Some(Invalid(e))
    case Ok(u) => if HasId(users, u.userId) then Some(DuplicateUserId(u.userId)) else None
  }

  /** The loop of `load_data_from_json`: records are taken in order, each
      built by the constructor and appended unless it fails. The first
      failure stops the loop; users added before it stay. */
  function LoadRecords(users: seq<User>, recs: seq<UserRecord>): (r: (seq<User>, Option<UserError>))
    ensures |users| <= |r.0| <= |users| + |recs|
    ensures r.0[..|users|] == users
    ensures r.1.None? <==> |r.0| == |users| + |recs|
    decreases |recs|
  {
    if |recs| == 0 then (users, None)
    else match LoadFailure(users, recs[0])
      case Some(e) => (users, Some(e))
      case None =>
        var users' := users + [FromRecord(recs[0]).value];
        var r := LoadRecords(users', recs[1..]);
        assert r.0[..|users|] == r.0[..|users'|][..|users|];
        r
  }

  /** The users a load appends are the constructor's results for the
      leading records, in order. */
  lemma {:induction false} LoadRecordsContents(users: seq<User>, recs: seq<UserRecord>)
    ensures forall j :: |users| <= j < |LoadRecords(users, recs).0| ==>
      FromRecord(recs[j - |users|]) == Ok(LoadRecords(users, recs).0[j])
    decreases |recs|
  {
    if |recs| > 0 && LoadFailure(users, recs[0]).None? {
      var users' := users + [FromRecord(recs[0]).value];
      LoadRecordsContents(users', recs[1..]);
      var loaded := LoadRecords(users', recs[1..]).0;
      assert loaded == LoadRecords(users, recs).0;
      assert loaded[..|users'|] == users';
      forall j | |users| <= j < |loaded| ensures FromRecord(recs[j - |users|]) == Ok(loaded[j]) {
        if j == |users| {
          assert loaded[j] == users'[j];
        } else {
          assert recs[1..][j - |users'|] == recs[j - |users|];
        }
      }
    }
  }

  /** A load that stops names the record after the last one it added: the
      constructor rejected it, or its id was already a key. */
  lemma {:induction false} LoadRecordsStop(users: seq<User>, recs: seq<UserRecord>)
    ensures LoadRecords(users, recs).1.Some? ==>
      LoadRecords(users, recs).1 == LoadFailure(LoadRecords(users, recs).0, recs[|LoadRecords(users, recs).0| - |users|])
    decreases |recs|
  {
    var r := LoadRecords(users, recs);
    if |recs| == 0 {
      assert r.1.None?;
    } else if LoadFailure(users, recs[0]).Some? {
      assert r == (users, LoadFailure(users, recs[0]));
    } else {
      var users' := users + [FromRecord(recs[0]).value];
      assert r == LoadRecords(users', recs[1..]);
      LoadRecordsStop(users', recs[1..]);
      if r.1.Some? {
        var k := |r.0| - |users'|;
        assert recs[1..][k] == recs[k + 1];
      }
    }
  }

  /** Whatever a load appends is valid and has a fresh id. */
  lemma {:induction false} LoadedUsersValid(users: seq<User>, recs: seq<UserRecord>)
    requires AllValid(users) && DistinctIds(users)
    ensures var loaded := LoadRecords(users, recs).0;
      AllValid(loaded) && DistinctIds(loaded)
    decreases |recs|
  {
    if |recs| > 0 && LoadFailure(users, recs[0]).None? {
      var u := FromRecord(recs[0]).value;
      {
        var users' := users + [u];
        assert forall j :: 0 <= j < |users| ==> users'[j] == users[j];
        assert AllValid(users');
        assert DistinctIds(users');
        LoadedUsersValid(users', recs[1..]);
      }
    }
  }

  /** `load_data_from_json`: the session is left alone; a failing record
      raises after the records before it were added. */
  function Load(m: Manager, doc: UserDocument): (r: Reply<()>)
    ensures r.manager.current == m.current
    ensures m.users <= r.manager.users
    ensures Wf(m) ==> Wf(r.manager)
    ensures doc.users.None? ==> r == Reply(m, Ok(()))
  {
    var recs := if doc.users.Some? then doc.users.value else [];
    var (users, failure) := LoadRecords(m.users, recs);
    assert m.users == users[..|m.users|];
    assert Wf(m) ==> AllValid(users) && DistinctIds(users) by {
      if Wf(m) { LoadedUsersValid(m.users, recs); }
    }
    assert m.current.Some? && HasId(m.users, m.current.value) ==> HasId(users, m.current.value) by {
      if m.current.Some? && HasId(m.users, m.current.value) {
        var k :| 0 <= k < |m.users| && m.users[k].userId == m.current.value;
        assert users[k] == m.users[k];
      }
    }
    Reply(m.(users := users), if failure.None? then Ok(()) else Err(failure.value))
  }

  /** Loading the records of valid users with distinct ids after `acc`
      appends exactly those users. */
  lemma {:induction false} LoadRecordsOfValid(acc: seq<User>, rest: seq<User>)
    requires AllValid(acc + rest) && DistinctIds(acc + rest)
    ensures LoadRecords(acc, Records(rest)) == (acc + rest, None)
    decreases |rest|
  {
    if |rest| > 0 {
      var all := acc + rest;
      var u := rest[0];
      assert u == all[|acc|];
      assert FromRecord(Records(rest)[0]) == Ok(u);
      assert !HasId(acc, u.userId) by {
        forall i | 0 <= i < |acc| ensures acc[i].userId != u.userId {
          assert acc[i] == all[i];
        }
      }
      assert Records(rest)[1..] == Records(rest[1..]);
      assert (acc + [u]) + rest[1..] == all;
      LoadRecordsOfValid(acc + [u], rest[1..]);
    } else {
      assert acc + rest == acc;
    }
  }

  /** Round trip: loading the export of a well-formed store into a fresh
      store rebuilds the same users in the same order, and exporting again
      gives the same document. */
  lemma ExportLoadRoundTrip(m: Manager)
    requires Wf(m)
    ensures Load(Empty, Export(m)) == Reply(Manager(m.users, None), Ok(()))
    ensures Export(Load(Empty, Export(m)).manager) == Export(m)
  {
    assert [] + m.users == m.users;
    LoadRecordsOfValid([], m.users);
  }

  /** Loading a document whose first user is already a key fails at once
      and changes nothing; in particular a non-empty store cannot load its
      own export a second time. */
  lemma ReloadIsRejected(m: Manager)
    requires Wf(m) && |m.users| > 0
    ensures Load(m, Export(m)) == Reply(m, Err(DuplicateUserId(m.users[0].userId)))
  {
    assert Records(m.users)[0] == ToRecord(m.users[0]);
    assert HasId(m.users, m.users[0].userId);
  }
}

=== FILE: user_scenarios.dfy ===
/** End-to-end properties of the user store that span several calls: the
    lockout cycle of `login`, and that a password set by `register` or
    `update_user_password` is the one that opens the account. */
module UserScenarios {
  import opened Outcomes
  import opened UserFields
  import opened UserStore

  /** One login attempt leaves the account list and the lookup of every
      name as they were, apart from the counters. */
  lemma LoginKeepsAccounts(m: Manager, name: string, pw: string, now: int, verify: Verifier, other: string)
    ensures var m' := Login(m, name, pw, now, verify).manager;
      && SameAccounts(m.users, m'.users)
      && IndexOfUsername(m'.users, other) == IndexOfUsername(m.users, other)
  {
    SameAccountsLookups(m.users, Login(m, name, pw, now, verify).manager.users, other);
  }

  /** Three wrong passwords in a row lock an account whose counter was
      clear: the third attempt locks it for two minutes. An attempt inside
      those two minutes is refused even with the right password and changes
      nothing. Once they are over, the right password gets in and the
      counter is back to zero. Times are POSIX seconds. */
  lemma LockoutCycle(m: Manager, name: string, wrong: string, right: string, verify: Verifier,
                     t1: int, t2: int, t3: int, t4: int, t5: int)
    requires UsernameInUse(m.users, name)
    requires var u := m.users[IndexOfUsername(m.users, name).value];
      && u.failedAttempts == 0 && u.lockUntil.None?
      && !verify(u.password, wrong) && verify(u.password, right)
    requires 0 <= t3 && t4 < t3 + LockSeconds <= t5
    ensures
      var i := IndexOfUsername(m.users, name).value;
      var r1 := Login(m, name, wrong, t1, verify);
      var r2 := Login(r1.manager, name, wrong, t2, verify);
      var r3 := Login(r2.manager, name, wrong, t3, verify);
      var r4 := Login(r3.manager, name, right, t4, verify);
      var r5 := Login(r4.manager, name, right, t5, verify);
      && r1.result == Err(WrongPassword)
      && r2.result == Err(WrongPassword)
      && r3.result == Err(TooManyFailedAttempts)
      && r3.manager.users[i].failedAttempts == MaxFailedAttempts
      && r3.manager.users[i].lockUntil == Some(t3 + LockSeconds)
      && r4 == Reply(r3.manager, Err(AccountLocked(t3 + LockSeconds)))
      && r5.result.Ok?
      && r5.result.value.failedAttempts == 0
      && r5.manager.current == Some(m.users[i].userId)
  {
    var i := IndexOfUsername(m.users, name).value;
    var r1 := Login(m, name, wrong, t1, verify);
    LoginKeepsAccounts(m, name, wrong, t1, verify, name);
    assert r1.manager.users[i].failedAttempts == 1 && r1.manager.users[i].lockUntil.None?;
    var r2 := Login(r1.manager, name, wrong, t2, verify);
    LoginKeepsAccounts(r1.manager, name, wrong, t2, verify, name);
    assert r2.manager.users[i].failedAttempts == 2 && r2.manager.users[i].lockUntil.None?;
    var r3 := Login(r2.manager, name, wrong, t3, verify);
    LoginKeepsAccounts(r2.manager, name, wrong, t3, verify, name);
    assert LockActive(r3.manager.users[i], t4);
    var r4 := Login(r3.manager, name, right, t4, verify);
    assert LockExpired(r4.manager.users[i], t5);
  }

  /** A freshly registered user can log in with the password it registered
      with, which opens its session. */
  lemma RegisterThenLogin(m: Manager, username: string, password: string, email: Option<string>,
                          phone: Option<string>, hash: Hasher, verify: Verifier, now: int)
    requires HashSound(hash, verify)
    requires Register(m, username, password, password, email, phone, hash).Ok?
    ensures var m' := Register(m, username, password, password, email, phone, hash).value.manager;
      var r := Login(m', username, password, now, verify);
      && r.result.Ok?
      && r.result.value.userId == NextId(m.users)
      && r.manager.current == Some(NextId(m.users))
  {
    var reg := Register(m, username, password, password, email, phone, hash).value;
    var users' := reg.manager.users;
    assert users'[|m.users|] == reg.user;
    assert forall j :: 0 <= j < |m.users| ==> users'[j] == m.users[j];
    assert IndexOfUsername(users', username) == Some(|m.users|);
    assert verify(hash(password), password);
  }

  /** After `update_user_password` the logged-in user opens the account
      with the new password, provided it is not locked at that time and no
      other user shares its name. */
  lemma ChangedPasswordOpensAccount(m: Manager, newPassword: string, hash: Hasher, verify: Verifier, now: int)
    requires Wf(m) && UniqueUsernames(m.users) && IsLoggedIn(m)
    requires HashSound(hash, verify)
    ensures var r := UpdatePassword(m, newPassword, newPassword, hash);
      var u := m.users[IndexOfId(m.users, m.current.value).value];
      r.Ok? && !LockActive(u, now) ==> Login(r.value, u.username, newPassword, now, verify).result.Ok?
  {
    var i := IndexOfId(m.users, m.current.value).value;
    if UpdatePassword(m, newPassword, newPassword, hash).Err? || LockActive(m.users[i], now) { return; }
    var name := m.users[i].username;
    var h := hash(newPassword);
    var m' := UpdatePassword(m, newPassword, newPassword, hash).value;
    assert m'.users == m.users[i := m.users[i].(password := h)];
    assert IndexOfUsername(m'.users, name) == Some(i) by {
      forall j | 0 <= j < i ensures m'.users[j].username != name {
        assert m'.users[j] == m.users[j];
      }
    }
    assert verify(h, newPassword);
  }
}
